=== FILE: README.md ===
# BoldStart-Reader in Dafny

A model of the core of BoldStart-Reader, a browser extension that bolds the first letters of every
word on pages the user has allowlisted. The model covers:

- the shared list utilities (`src/shared/list-utils.js`):
  - `normalize` turns textarea lines into a stored domain list;
  - `reconcileLists` merges an edited allowlist/blocklist pair against the last saved pair, and
    asks for confirmation before moving a site from the blocklist to the allowlist;
- the rate limiter (`src/shared/rate-limit.js`);
- the content script (`src/content/index.js`):
  - how many letters of a word are bolded, and how a text is cut into bold heads and plain text;
  - which text nodes qualify for the transform;
  - the walk that wraps them and the reset that unwraps them;
  - the blocked-host check;
  - the `enabled` flag with `setEnabled`/`toggle`, and the `TOGGLE`/`STATE` message handler;
- the background worker (`src/background/index.js`):
  - the allowlist edits made from the context menu;
  - the allowlist match;
  - the gate and badge logic of `toggleForActiveTab`.

## Layout

| file | module | what |
|---|---|---|
| `wrappers.dfy` | `Wrappers` | `Option`, standing for `undefined`/`null`/non-number cases |
| `text.dfy` | `Text` | JavaScript `trim`, ASCII `toLowerCase`, default sort order, sort-and-dedupe |
| `list_utils.dfy` | `ListUtils` | `normalize`, `reconcileLists` and a per-item reference rule `Verdict` |
| `rate_limit.dfy` | `RateLimit` | `shouldRun` |
| `hosts.dfy` | `Hosts` | "equals an entry or is a subdomain of it" |
| `bolding.dfy` | `Bolding` | `lettersForWord`, word/gap tokenising, `buildFragment` |
| `document.dfy` | `Document` | abstract DOM tree, the qualifying rule, walk, reset |
| `content_script.dfy` | `ContentScript` | `isBlockedHost`, `apply`, `setEnabled`, `toggle`, messages, start-up |
| `background.dfy` | `Background` | `updateAllowlist`, `isAllowlistedHost`, `toggleForActiveTab` |
| `extension.dfy` | `Extension` | one toolbar click, from the background's decision to the badge |

How the model represents the source:

- A JavaScript `Set` of strings is a `set<string>`.
- `Array.from(set).sort()` is `SortUnique`: an ascending list with no repeats, whose order is
  character-by-character lexicographic.
- The `confirmMoveToAllow` callback is an `Option<string -> bool>`, where `None` means no callback
  was given. `ReconcileLists` also returns the sequence of items the callback was asked about.
- The DOM is a tree of `TextNode`s and `Element`s. Each element carries a tag, a class set, its own
  `contenteditable` setting and its children.
- The `enabled` flag and the page body together form a `Page`.
- The page's hostname and the blocked-host list are fixed inputs, held in an `Env`.
- The background's storage, tabs, messaging and badge calls become arguments and return values.

Three behaviours of the code that are easy to miss:

- **The flag starts on.** The content script starts with `enabled = true` (`src/content/index.js:73`),
  not disabled. It keeps that value on a blocked host, where `apply` returns without doing
  anything. So right after start-up a `STATE` query on a blocked host answers `true`, and the first
  `TOGGLE` there answers `false` (`ContentScript.BootOnBlockedHost`). On a host that is both
  allowlisted and blocked, the first click injects the script and sets the badge to ON, yet the page
  is left as it was (`Extension.BlockedButAllowlisted`).
- **Only the direct parent's tag is tested.** `acceptNode` tests only the text node's direct parent
  against `SKIP_TAGS` (`src/content/index.js:180`). So text in a `<span>` inside a `<pre>` is
  transformed (`Document.SkipLooksAtParentOnly`). Editability, unlike the tag
  test, is inherited, because `isContentEditable` is (`Document.EditableInherited`).
- **No code calls `shouldRun`.** The content script registers no mutation observer and never
  re-runs the walk after start-up except through `TOGGLE`; `shouldRun`
  (`src/shared/rate-limit.js:2-7`) is defined but unused.

## Model

| member | source | states |
|---|---|---|
| Text.Trim | src/shared/list-utils.js:3 | `trim` leaves a string with no trim-space at either end, obtained by cutting only trim-space (the full ECMAScript WhiteSpace and LineTerminator set) from the two ends; the result is empty exactly when the input is all trim-space |
| Text.TrimTrimmed | src/shared/list-utils.js:3 | `trim` leaves a trimmed string unchanged |
| Text.LowerChar | src/shared/list-utils.js:3 | an upper-case ASCII letter becomes the lower-case letter 32 code points above it; every other character is kept; whitespace stays whitespace |
| Text.Lower | src/shared/list-utils.js:3 | `toLowerCase` keeps the length, maps every character independently, and leaves no upper-case ASCII letter |
| Text.LowerOfLower | src/shared/list-utils.js:3 | lower-casing an already lower-case string changes nothing |
| Text.BelowTotal | src/shared/list-utils.js:4 | the default sort order is total: two different strings are ordered one way or the other |
| Text.BelowTransitive | src/shared/list-utils.js:4 | the default sort order is transitive |
| Text.Insert | src/shared/list-utils.js:4 | inserting into a strictly ascending list keeps it strictly ascending and adds exactly the new element |
| Text.SortUnique | src/shared/list-utils.js:4 | `Array.from(new Set(xs)).sort()` is strictly ascending and has exactly the elements of `xs` |
| Text.SortedUnique | src/shared/list-utils.js:4 | two strictly ascending lists with the same elements are equal, so the sorted listing of a set is unique |
| Text.SortUniqueOfSorted | src/shared/list-utils.js:4 | sorting and de-duplicating a strictly ascending list returns it unchanged |
| ListUtils.Clean | src/shared/list-utils.js:3 | a cleaned line is trimmed and has no upper-case letter; it is empty exactly when the line is blank; it is the trimmed line with each character lower-cased, so `filter(Boolean)` drops exactly the blank lines |
| ListUtils.CleanIdempotent | src/shared/list-utils.js:3 | cleaning twice is cleaning once |
| ListUtils.NonEmptyMap | src/shared/list-utils.js:3 | `lines.map(f).filter(Boolean)` has exactly the non-empty values of `f` on the lines |
| ListUtils.Normalize | src/shared/list-utils.js:2-5 | `normalize` returns an ascending, repeat-free list of non-empty, trimmed, lower-case entries whose elements are exactly the non-empty cleaned lines |
| ListUtils.NormalizeIsSortedListing | src/shared/list-utils.js:2-5 | any ascending, repeat-free list of the non-empty cleaned lines is the result of `normalize`; this fixes the result of the normalize test from its elements |
| ListUtils.NormalizeIdempotent | src/shared/list-utils.js:2-5 | normalizing a normalized list changes nothing |
| ListUtils.NormalizeNormal | src/shared/list-utils.js:2-5 | a list that is already ascending, repeat-free and clean is its own normalization |
| ListUtils.Without | src/shared/list-utils.js:19-20 | the `addedToAllow`/`addedToBlock` filter keeps exactly the items not in the saved set |
| ListUtils.Within | src/shared/list-utils.js:48-49 | the listing filter keeps exactly the items in the final set |
| ListUtils.Verdict | src/shared/list-utils.js:14-45 | the per-item reference rule: an item is Absent exactly when it is in neither edited list; Allowed only when it is in the allowlist; Blocked without being in the blocklist only when it is a moving item the callback declined |
| ListUtils.MoveStart | src/shared/list-utils.js:16-26 | after the evictions the allow set holds the allowlist items except those newly added to the blocklist; the block set is the blocklist; nobody has been asked |
| ListUtils.MovingItems | src/shared/list-utils.js:19-31 | an item is listed exactly when it is moving: in the allowlist, not in the saved allowlist, and in the saved blocklist; the list is never longer than the allowlist |
| ListUtils.MoveStep | src/shared/list-utils.js:28-39 | one step of the move pass touches only its item: a still-allowed item that was blocked last time goes to the allowlist when confirmed (or when there is no callback) and back to the blocklist when refused; the callback is asked exactly in that case and only when one is given |
| ListUtils.MovePass | src/shared/list-utils.js:28-39 | the move pass only ever removes items from the allow set, and items not in the pass keep their place in both sets |
| ListUtils.MovePassEffect | src/shared/list-utils.js:28-39 | after the whole pass, every item of the pass that was still allowed and blocked last time sits where its confirmation sends it; every other item is where it was |
| ListUtils.MovePassAsks | src/shared/list-utils.js:28-39 | the pass asks only about its still-allowed, blocked-last-time items, asks about all of them when a callback exists, only appends to the record, and asks nothing without a callback |
| ListUtils.MovePassAsksInOrder | src/shared/list-utils.js:28-39 | on a repeat-free pass list, the callback is asked about the qualifying items once each, in list order |
| ListUtils.Passes | src/shared/list-utils.js:14-45 | after the three passes, an item is in the allow set exactly when `Verdict` says Allowed and in the block set exactly when it says Blocked |
| ListUtils.ReconcileLists | src/shared/list-utils.js:7-51 | both returned lists are strictly ascending; an item is in the returned allowlist exactly when `Verdict` says Allowed and in the returned blocklist exactly when it says Blocked; the two lists are disjoint and together hold exactly the items of the two input lists |
| ListUtils.ReconcileAsks | src/shared/list-utils.js:28-31 | the callback is asked only about moving items; without a callback nobody is asked; with one, every moving item is asked |
| ListUtils.ReconcileAsksInOrder | src/shared/list-utils.js:19-39 | when the allowlist has no repeats, the callback is asked about exactly the moving items, in allowlist order, once each |
| ListUtils.UnchangedAllowlistAsksNothing | src/shared/list-utils.js:19-31 | when the allowlist equals the saved allowlist, the callback is never asked |
| ListUtils.RepeatedItemAskedTwice | src/shared/list-utils.js:19-31 | an item listed twice in the allowlist is asked about twice when the first answer is yes |
| ListUtils.BlockAdditionEvicts | src/shared/list-utils.js:20-26 | an item newly added to the blocklist ends up blocked and not allowed |
| ListUtils.UnrelatedAllowKept | src/shared/list-utils.js:16-45 | an allowlist entry that is not in the blocklist and not moving stays allowed and is not blocked |
| ListUtils.MoveFollowsConfirmation | src/shared/list-utils.js:28-39 | a moving item ends up allowed exactly when confirmed, and blocked otherwise |
| ListUtils.NoHistoryBlockWins | src/shared/list-utils.js:41-45 | with empty history, an item in both lists ends up blocked only |
| ListUtils.ReconcileUnchanged | src/shared/list-utils.js:7-51 | sorted, disjoint lists reconciled against themselves come back unchanged, and nobody is asked |
| ListUtils.ReconcileIdempotent | src/shared/list-utils.js:7-51 | reconciling the result against itself changes nothing, whatever the callback |
| ListUtils.ResultLists | src/shared/list-utils.js:47-50 | the returned lists are the unique ascending listings of the Allowed and Blocked items |
| ListUtils.ScenarioBlockAdditionEvicts | tests/list-utils.test.js:23-33 | the test "adding to blocklist removes from allowlist", for any callback |
| ListUtils.ScenarioMove | tests/list-utils.test.js:35-57 | the two tests "moving from blocklist to allowlist", as one statement over the callback's answer |
| ListUtils.ScenarioBlockWins | tests/list-utils.test.js:59-69 | the test "conflict from external changes: blocklist wins", for any callback |
| ListUtils.ScenarioUnrelatedKept | tests/list-utils.test.js:71-81 | the test "adding to blocklist keeps unrelated allowlist entries", for any callback |
| RateLimit.ShouldRun | src/shared/rate-limit.js:2-7 | with no current time a pass never runs; with no previous run, or no interval, it always runs; otherwise it runs exactly when at least the interval has elapsed since the previous run |
| RateLimit.ShouldRunMonotone | src/shared/rate-limit.js:6 | once a pass may run, it may run at any later time too |
| RateLimit.ShouldRunThreshold | src/shared/rate-limit.js:6 | with a positive interval the boundary is exact: refused one millisecond before `last + interval`, allowed at it |
| RateLimit.ShouldRunExamples | tests/rate-limit.test.js:18-28 | the three rate-limit tests |
| Hosts.MatchesEntry | src/content/index.js:103 | a host matches an entry exactly when it is the entry or a subdomain of it |
| Hosts.DotSuffixMeaning | src/content/index.js:103 | `host.endsWith("." + entry)` holds exactly when some dot in the host is followed by exactly the entry |
| Hosts.MatchesAny | src/content/index.js:103 | the `.some` over a list holds exactly when the host is some entry or a subdomain of one |
| Hosts.MatchExamples | src/content/index.js:103 | `xchase.com` does not match `chase.com`; `chase.com` and `online.chase.com` do |
| Bolding.CeilTwoFifths | src/content/index.js:112 | `Math.ceil(len * 0.4)` is the least `k` with `5k >= 2 len` |
| Bolding.LettersForWord | src/content/index.js:106-115 | an empty word gets 0 letters; 1 to 3 letters get 1; 4 to 6 letters get 2 or 3 (the ceiling of two fifths); longer words get the ceiling capped at 6; a non-empty word gets between 1 and `min(len, 6)` |
| Bolding.LettersExamples | src/content/index.js:106-115 | "ab" and "cat" get one letter, "banana" three, a 20-letter word six |
| Bolding.RunLength | src/content/index.js:120 | the run is a prefix whose characters are all of the wanted kind, and it is maximal: the next character, if any, is of the other kind |
| Bolding.RunLengthExact | src/content/index.js:120 | a prefix of same-kind characters followed by a different kind is exactly the run the regular expression matches |
| Bolding.Tokenize | src/content/index.js:120-151 | the `exec` loop cuts the text into alternating, non-empty words of `[A-Za-z0-9]` and gaps without them, which spell the text back |
| Bolding.TokenizeUnique | src/content/index.js:120-151 | that cut is the only one: any alternating sequence of proper words and gaps that spells the text equals it |
| Bolding.HeadLength | src/content/index.js:133 | a non-empty word gets between 1 and `min(len, 6)` bold letters |
| Bolding.RenderToken | src/content/index.js:129-144 | a gap becomes one text node holding it verbatim; a word becomes a bold head of `HeadLength` letters, then a plain tail exactly when something is left; the pieces spell the token |
| Bolding.Render | src/content/index.js:124-151 | the segments spell the text; bold segments are non-empty word characters of at most 6 letters; plain segments are non-empty |
| Bolding.BoldSegmentsAreWordHeads | src/content/index.js:133-140 | every bold segment is the head of one of the words |
| Bolding.PlainSegmentsAreGapsOrTails | src/content/index.js:129-144 | every plain segment is a whole gap without word characters, or the tail of a word after its head |
| Bolding.BuildFragment | src/content/index.js:117-154 | a blank text is handed back as it is; any other text becomes segments that spell it, each bold one a short run of word characters |
| Bolding.FragmentBoldIsHead | src/content/index.js:129-140 | every bold segment of a fragment is the head of one of the words of the text |
| Bolding.TokenizeExample | src/content/index.js:120-151 | "Hi, you!" is cut into `Hi`, `, `, `you`, `!` |
| Bolding.FragmentExample | src/content/index.js:117-154 | "Hi, you!" becomes bold `H`, `i`, `, `, bold `y`, `ou`, `!` |
| Document.IsEditable | src/content/index.js:82 | an element with its own `contenteditable` setting is editable exactly when that setting is on; otherwise it inherits its parent's |
| Document.ChildCtx | src/content/index.js:79-90 | a child's parent is skipped exactly when its tag is in `SKIP_TAGS` or it is editable; the child is inside a wrapper exactly when the parent or an ancestor has `hl-processed` |
| Document.Accepts | src/content/index.js:177-183 | a text node is accepted exactly when its trimmed value is non-empty, its parent is not skipped and it is not inside a wrapper |
| Document.SegmentNodes | src/content/index.js:129-146 | the fragment's nodes hold, in order, exactly the text of the segments |
| Document.Wrap | src/content/index.js:163-169 | the wrapper is a `span.hl-processed` whose text is the original text and whose children are the nodes of the fragment `buildFragment` returns for it |
| Document.WrapBoldsWordHeads | src/content/index.js:129-168 | every element inside a wrapper is a `span.hl-bold` holding the bold head of one of the words of the wrapped text |
| Document.ProcessTextNode | src/content/index.js:156-170 | a text node is replaced by a wrapper exactly when it is not blank, its parent is not skipped and it is not inside a wrapper; otherwise it stays; its text is kept either way; the wrapper is the one `Wrap` builds |
| Document.Process | src/content/index.js:172-194 | the walk replaces only text nodes, each by what `processTextNode` makes of it: an accepted one by its wrapper and any other by itself; every element keeps its tag, classes and editability, and its children are its own children walked with the context it gives them |
| Document.ProcessAll | src/content/index.js:172-194 | the walk over a list of children keeps their number |
| Document.ProcessAllAt | src/content/index.js:172-194 | the walk handles each child on its own, in place |
| Document.WalkAndProcess | src/content/index.js:163-199 | walking from the body keeps its text, walking the result again changes nothing, and every wrapper afterwards is the bold fragment of its own text when that held before |
| Document.ProcessBoldsWrappers | src/content/index.js:163-194 | the walk turns every text it replaces into the wrapper of that text's bold heads and leaves existing well-built wrappers as they are, anywhere in the tree |
| Document.NoProcessedBolded | src/content/index.js:158 | a tree without wrappers has no badly built wrapper |
| Document.Collect | src/content/index.js:172-191 | the walker's first phase collects only non-blank texts, and nothing below a wrapper |
| Document.CollectAll | src/content/index.js:172-191 | the first phase over a list of children collects only non-blank texts, and nothing below a wrapper |
| Document.ProcessKeepsText | src/content/index.js:163-169 | the walk keeps the text content of every subtree |
| Document.WalkKeepsText | src/content/index.js:196-199 | applying the transform keeps the text of the page body |
| Document.ProcessInsideWrapper | src/content/index.js:86-90 | nothing under a wrapper is touched by the walk |
| Document.WrapStable | src/content/index.js:177-182 | a wrapper, wherever it sits, is left alone by a second walk |
| Document.ProcessIdempotent | src/content/index.js:172-194 | walking twice is walking once |
| Document.ProcessWrapsCollected | src/content/index.js:187-193 | on a tree without wrappers, the wrappers created hold, in document order, exactly the texts the walker's first phase collects |
| Document.WalkOfCleanPage | src/content/index.js:172-207 | on a body without wrappers, the walk wraps exactly the collected texts, each wrapper holds the bold fragment of its text, and the reset gives the body back |
| Document.Reset | src/content/index.js:202-207 | a wrapper becomes a single text node holding its text content; a text node stays; an element that remains was not a wrapper and keeps its tag, classes, editability and number of children |
| Document.ResetAll | src/content/index.js:202-207 | the reset over a list of children keeps their number |
| Document.ResetAllAt | src/content/index.js:202-207 | the reset handles each child on its own, in place |
| Document.ResetKeepsText | src/content/index.js:202-207 | the reset keeps the text content |
| Document.ResetRemovesWrappers | src/content/index.js:202-207 | after the reset no element with `hl-processed` is left |
| Document.ResetWithoutWrappers | src/content/index.js:202-207 | the reset leaves a tree without wrappers as it is |
| Document.ResetIdempotent | src/content/index.js:202-207 | resetting twice is resetting once |
| Document.ResetUndoesProcess | src/content/index.js:156-207 | on a tree without wrappers, walking and then resetting gives back the very same tree |
| Document.SkipLooksAtParentOnly | src/content/index.js:79-84 | text directly in `<pre>` is left, text in a `<span>` in `<pre>` is wrapped |
| Document.EditableInherited | src/content/index.js:82 | text below an editable element is left unless an element in between switches editing off |
| ContentScript.IsBlockedHost | src/content/index.js:100-104 | an empty hostname is never blocked; otherwise the lower-cased hostname is blocked exactly when it is an entry or a subdomain of one |
| ContentScript.Apply | src/content/index.js:196-200 | `apply` keeps the flag and the page text and changes nothing on a blocked host; on any other host the body ends up fully walked, and when it held no wrapper, exactly the collected texts are wrapped, each as the bold fragment of its text, and the reset gives it back |
| ContentScript.SetEnabled | src/content/index.js:213-225 | the new flag is `next && !blocked`; the page text is kept; a disabled page has no wrapper left; an enabled page needs no further walk; every wrapper stays the bold fragment of its text |
| ContentScript.Toggle | src/content/index.js:227-229 | the flag after a toggle is on exactly when it was off and the host is not blocked; the page text is kept; a page toggled off has no wrapper left; a page toggled on is fully walked and, when it held no wrapper, its wrappers hold the bold fragments of their texts and the reset gives it back |
| ContentScript.ToggleOnBlockedHost | src/content/index.js:213-229 | on a blocked host a toggle always answers false and leaves no wrapper |
| ContentScript.ToggleTwiceRestores | src/content/index.js:202-229 | on an unblocked host, switching a disabled page without wrappers on and off gives back the very same page |
| ContentScript.DisableIdempotent | src/content/index.js:209-221 | disabling twice is disabling once |
| ContentScript.EnableIdempotent | src/content/index.js:213-225 | enabling twice is enabling once |
| ContentScript.OnMessage | src/content/index.js:231-241 | `TOGGLE` toggles and replies with the new flag; `STATE` replies with the flag and changes nothing; any other message changes nothing and gets no reply |
| ContentScript.MessageProperties | src/content/index.js:231-241 | a `STATE` query never changes the page; a `TOGGLE` on a blocked host always answers false |
| ContentScript.Boot | src/content/index.js:243-249 | after start-up the flag is on and the page text is kept; on a blocked host the page is untouched; on any other the body is fully walked and, when it held no wrapper, exactly the collected texts are wrapped, each as the bold fragment of its text, and the reset gives it back |
| ContentScript.BootOnBlockedHost | src/content/index.js:243-249 | on a blocked host, `STATE` right after start-up answers true while the page is untouched, and the first `TOGGLE` answers false |
| Background.Drop | src/background/index.js:50 | the filter removes every copy of the host and keeps the count of every other entry |
| Background.DropAppend | src/background/index.js:50 | the filter works piece by piece, so the kept entries stay in their order |
| Background.DropAbsent | src/background/index.js:50 | filtering a host out of a list without it changes nothing |
| Background.UpdateAllowlist | src/background/index.js:37-54 | nothing is written for an empty host; "add" keeps the existing list as a prefix, adds the host at most once, and changes nothing when it is already there; "remove" leaves no copy of the host and keeps every other entry |
| Background.AddKeepsDuplicateFree | src/background/index.js:45-47 | adding keeps a repeat-free list repeat-free |
| Background.RemoveUndoesAdd | src/background/index.js:43-51 | removing a host just added gives back the list as it was |
| Background.RemoveKeepsOrder | src/background/index.js:49-51 | "remove" filters entry by entry: an entry other than the host is kept, the host is dropped, and a list is filtered piece by piece, so the kept entries stay in order |
| Background.AddAfterRemove | src/background/index.js:43-51 | adding a host just removed puts it at the end of the filtered list |
| Background.UpdateIdempotent | src/background/index.js:43-51 | repeating an edit changes nothing more |
| Background.IsAllowlistedHost | src/background/index.js:56-59 | a host is allowlisted exactly when it is an entry or a subdomain of one |
| Background.AddAllows | src/background/index.js:45-59 | after "add" the host is allowlisted |
| Background.RemoveLeavesOnlyParents | src/background/index.js:49-59 | after "remove" the host is allowlisted only through a parent domain still listed |
| Background.ToggleForActiveTab | src/background/index.js:72-81 | nothing happens without a tab, a usable id or a host; a host that is not allowlisted gets an OFF badge and no message; an allowlisted one is sent `TOGGLE` |
| Background.BadgeAfterReply | src/background/index.js:82-91 | with no receiver the badge goes ON; a boolean answer is shown as it is; any other answer leaves the badge |
| Background.NotAllowlistedNeverToggled | src/background/index.js:77-81 | a tab whose host is not allowlisted gets an OFF badge and is never sent `TOGGLE` |
| Extension.Click | src/background/index.js:72-92 | a click changes the page only when the host is allowlisted; with the script running it toggles the flag (off on a blocked host), keeps the text, leaves the page walked or wrapper-free accordingly, and the badge shows the new flag; without a script the badge goes ON and an injectable page gets a script whose flag is on and whose body is walked unless the host is blocked; in both cases every wrapper is the bold fragment of its text, and a clean page injected on an unblocked host gets exactly its collected texts wrapped and is given back by the reset |
| Extension.NotAllowlistedUntouched | src/background/index.js:77-81 | a click never changes the page of a host that is not allowlisted |
| Extension.BlockedButAllowlisted | src/background/index.js:82-87 | on a host both allowlisted and blocked, the first click injects the script and shows ON while the page is untouched; later clicks show OFF |

## Left out

- The `chrome.*` APIs are not modelled: storage get/set and `onChanged`, runtime and tab messaging,
  badges, context menus, commands and `scripting.executeScript`. They are I/O. Their inputs and
  outputs are arguments and results instead, for example `Background.BadgeAfterReply` and the
  `injectable` flag of `Extension.Click`.
- `getAllowlist` is not modelled. It is a storage read whose only logic is a fallback to the
  default list. The allowlist is a parameter.
- `getHost` (`src/background/index.js:16-22`) depends on the WHATWG URL parser. The hostname is an
  input.
- The `chrome.tabs.onActivated` badge sync (`src/background/index.js:127-137`) is not modelled. It
  sends `STATE` to the newly active tab, sets the badge to OFF when no script answers, and shows a
  boolean answer as it is; it is badge I/O only and never changes a page.
- `src/options/options.js` is not modelled. It is form handling and `window.confirm`, which is the
  callback parameter of `ReconcileLists`.
- The hard-coded `BLOCKED_HOSTS` and `DEFAULT_ALLOWLIST` contents are parameters.
- The real DOM is an abstract tree:
  - The `TreeWalker`'s collect-then-replace is one recursive pass. Replacing one text node
    changes neither the parent nor the ancestors of another, so the two agree.
    `Document.ProcessWrapsCollected` ties the pass to the collected list.
  - Attributes other than the class set and `contenteditable` are not modelled, and neither is
    `designMode`.
  - The page's `<html>` element is assumed to be neither editable nor a wrapper.
- Async sequencing is not modelled. `apply` is `async` but has no `await`, so it runs to
  completion.
- `ensureStyle` (CSS injection) is not modelled.
- The `document.readyState` test (`src/content/index.js:243-249`) is not modelled. `Boot` is the
  state once the start-up walk has run: at once when the document is no longer loading, otherwise
  at `DOMContentLoaded`, and then only if the flag is still on. A `TOGGLE` handled before
  `DOMContentLoaded` walks or resets the body as it is at that moment, and the later event walks
  again only when the flag is then on; that window is not modelled.
- `tests/run-tests.js` is not modelled.
- ListUtils.ReconcileLists: the confirmation callback is a pure function of the item, so an item
  listed twice in the edited allowlist gets the same answer both times. The real callback is
  `window.confirm` (`src/options/options.js:58-61`), which may answer yes and then no; the source
  then blocks the item, while the model allows it. The case needs a repeated allowlist entry, and
  the options page passes `normalize`d, repeat-free lists, where each item is asked at most once
  (`ListUtils.ReconcileAsksInOrder`).
- Document.Reset: `document.querySelectorAll` also finds `hl-processed` elements outside `<body>`;
  the model resets the body only, which is all that the walk from `document.body` ever wraps.
- Text.Lower: only ASCII letters are lower-cased. JavaScript's `toLowerCase` also maps other
  Unicode letters.
- Text.Below: strings are compared by code point, not by UTF-16 code unit. The two orders differ
  only for characters beyond the Basic Multilingual Plane.
- Bolding.CeilTwoFifths: `Math.ceil(len * 0.4)` is computed exactly. In floating point,
  `len * 0.4` can land just above an integer when `len` is a multiple of 5. Below 15 that happens
  for neither 5 nor 10, whose products round to exactly 2 and 4. From 15 letters on, the cap of 6
  hides any difference.
- RateLimit.ShouldRun: numbers are integers. `NaN` and the infinities are not modelled.
- The normalize test (`tests/list-utils.test.js:18-21`) has no concrete lemma, because unfolding
  `trim`/`toLowerCase` on literal strings is too costly for the verifier. The expected list follows
  from `ListUtils.Normalize` and `ListUtils.NormalizeIsSortedListing`.

=== FILE: background.dfy ===
/**
 The decisions of the background service worker (`src/background/index.js`): the edit made to
 the stored allowlist by the "Allow this site" and "Remove site from allowlist" menu items
 (`updateAllowlist`), the allowlist match (`isAllowlistedHost`), and what a click on the
 toolbar button or the keyboard command does to the active tab (`toggleForActiveTab`).

 The tab's hostname is an input (it comes from the URL parser); storage, messaging and the
 badge are replaced by the values the functions return.
 */
module Background {
  import opened Wrappers
  import opened Text
  import opened Hosts

  /** The two context-menu edits. */
  datatype Mode = Add | Remove

  /** `next.filter((item) => item !== host)`. */
  function Drop(xs: seq<string>, host: string): (r: seq<string>)
    ensures host !in r
    ensures forall x | x != host :: multiset(r)[x] == multiset(xs)[x]
    ensures |r| <= |xs|
  {
    if |xs| == 0 then []
    else
      var rest := Drop(xs[1..], host);
      assert xs == [xs[0]] + xs[1..];
      if xs[0] == host then rest else [xs[0]] + rest
  }

  /** Filtering works piece by piece, so the entries kept stay in their order. */
  lemma {:induction false} DropAppend(a: seq<string>, b: seq<string>, host: string)
    ensures Drop(a + b, host) == Drop(a, host) + Drop(b, host)
  {
    if |a| == 0 {
      assert a + b == b;
    } else {
      assert (a + b)[0] == a[0] && (a + b)[1..] == a[1..] + b;
      DropAppend(a[1..], b, host);
    }
  }

  lemma DropSingle(x: string, host: string)
    ensures Drop([x], host) == (if x == host then [] else [x])
  {
    assert [x][1..] == [];
  }

  /** A list without the host is left alone by the filter. */
  lemma {:induction false} DropAbsent(xs: seq<string>, host: string)
    requires host !in xs
    ensures Drop(xs, host) == xs
  {
    if |xs| > 0 {
      DropAbsent(xs[1..], host);
      assert xs == [xs[0]] + xs[1..];
    }
  }

  /** The edit of `updateAllowlist` (lines 37-54): `None` when the tab has no hostname and
      nothing is written; otherwise the list written back. "add" appends the host when it is
      not there yet; "remove" filters out every copy of it. */
  function UpdateAllowlist(host: string, mode: Mode, current: seq<string>): (r: Option<seq<string>>)
    ensures r.None? <==> host == ""
    ensures r.Some? && mode == Add ==>
      && |current| <= |r.value| <= |current| + 1
      && r.value[..|current|] == current
      && Elems(r.value) == Elems(current) + {host}
      && (host in current ==> r.value == current)
    ensures r.Some? && mode == Remove ==>
      && host !in r.value
      && forall x | x != host :: multiset(r.value)[x] == multiset(current)[x]
  {
    if host == "" then None
    else
      match mode
      case Add =>
        if host in current then Some(current)
        else
          assert (current + [host])[..|current|] == current;
          Some(current + [host])
      case Remove => Some(Drop(current, host))
  }

  /** Adding keeps the stored list free of repeats. */
  lemma AddKeepsDuplicateFree(host: string, current: seq<string>)
    requires host != "" && DuplicateFree(current)
    ensures DuplicateFree(UpdateAllowlist(host, Add, current).value)
  {
    var next := UpdateAllowlist(host, Add, current).value;
    if host !in current {
      forall i, j | 0 <= i < j < |next| ensures next[i] != next[j] {
        if j == |current| { assert next[i] == current[i]; }
      }
    }
  }

  /** Removing a host just added gives back the list as it was. */
  lemma RemoveUndoesAdd(host: string, current: seq<string>)
    requires host != "" && host !in current
    ensures UpdateAllowlist(host, Remove, UpdateAllowlist(host, Add, current).value) == Some(current)
  {
    DropAppend(current, [host], host);
    DropAbsent(current, host);
    DropSingle(host, host);
    assert current + [] == current;
  }

  /** Removing works entry by entry: an entry other than the host is kept, the host is
      dropped, and the pieces of a list are filtered separately, so the entries kept stay in
      their order. */
  lemma RemoveKeepsOrder(host: string, a: seq<string>, b: seq<string>, x: string)
    requires host != ""
    ensures UpdateAllowlist(host, Remove, a + b).value
         == UpdateAllowlist(host, Remove, a).value + UpdateAllowlist(host, Remove, b).value
    ensures UpdateAllowlist(host, Remove, [x]).value == (if x == host then [] else [x])
  {
    DropAppend(a, b, host);
    DropSingle(x, host);
  }

  /** Adding a host just removed puts it at the end. */
  lemma AddAfterRemove(host: string, current: seq<string>)
    requires host != ""
    ensures UpdateAllowlist(host, Add, UpdateAllowlist(host, Remove, current).value)
         == Some(Drop(current, host) + [host])
  {
  }

  /** Each edit, repeated, changes nothing more. */
  lemma UpdateIdempotent(host: string, mode: Mode, current: seq<string>)
    requires host != ""
    ensures var once := UpdateAllowlist(host, mode, current).value;
            UpdateAllowlist(host, mode, once) == Some(once)
  {
    var once := UpdateAllowlist(host, mode, current).value;
    if mode == Remove {
      DropAbsent(once, host);
    } else {
      assert host in Elems(once);
    }
  }

  /** `isAllowlistedHost` (lines 56-59): some entry is the host or a parent domain of it. */
  function IsAllowlistedHost(host: string, allowlist: seq<string>): (r: bool)
    ensures r <==> exists i | 0 <= i < |allowlist| :: host == allowlist[i] || IsSubdomainOf(host, allowlist[i])
  {
    MatchesAny(host, allowlist)
  }

  /** Adding the host of a tab makes that host allowlisted. */
  lemma AddAllows(host: string, current: seq<string>)
    requires host != ""
    ensures IsAllowlistedHost(host, UpdateAllowlist(host, Add, current).value)
  {
    var next := UpdateAllowlist(host, Add, current).value;
    assert host in Elems(next);
    var i :| 0 <= i < |next| && next[i] == host;
  }

  /** After "remove" the host is allowlisted only through a parent domain still listed. */
  lemma RemoveLeavesOnlyParents(host: string, current: seq<string>)
    requires host != ""
    ensures var next := UpdateAllowlist(host, Remove, current).value;
            IsAllowlistedHost(host, next) <==>
              exists i | 0 <= i < |next| :: IsSubdomainOf(host, next[i])
  {
  }

  // ---------------------------------------------------------------------------
  // the toolbar toggle

  /** The active tab as `chrome.tabs.query` reports it: its id (`None` when missing) and the
      hostname of its URL ("" when the URL has none or does not parse). */
  datatype Tab = Tab(id: Option<int>, host: string)

  /** What `toggleForActiveTab` does: nothing, set the badge to OFF without asking the page,
      or send `TOGGLE` to the page. */
  datatype ToggleAction = DoNothing | BadgeOff(tabId: int) | SendToggle(tabId: int)

  /** A tab id the `!tab.id` test lets through: present and not 0. */
  predicate HasId(t: Tab)
  {
    t.id.Some? && t.id.value != 0
  }

  /** `toggleForActiveTab` (lines 72-92) up to the message: a tab without a usable id or a
      host is ignored; a host that is not allowlisted gets an OFF badge and no message. */
  function ToggleForActiveTab(tab: Option<Tab>, allowlist: seq<string>): (a: ToggleAction)
    ensures a.DoNothing? <==> tab.None? || !HasId(tab.value) || tab.value.host == ""
    ensures a.SendToggle? ==> tab.Some? && Some(a.tabId) == tab.value.id && IsAllowlistedHost(tab.value.host, allowlist)
    ensures a.BadgeOff? ==> tab.Some? && Some(a.tabId) == tab.value.id && !IsAllowlistedHost(tab.value.host, allowlist)
  {
    match tab
    case None => DoNothing
    case Some(t) =>
      if !HasId(t) || t.host == "" then DoNothing
      else if !IsAllowlistedHost(t.host, allowlist) then BadgeOff(t.id.value)
      else SendToggle(t.id.value)
  }

  /** How the `TOGGLE` round trip ends: no content script answered (the runtime reports an
      error), or an answer came back, carrying a boolean `enabled` or not. */
  datatype ToggleReply = NoReceiver | Response(enabled: Option<bool>)

  /** The badge after the reply (lines 82-91): with no receiver the script is injected and the
      badge says ON; a boolean answer is shown as it is; any other answer leaves the badge. */
  function BadgeAfterReply(reply: ToggleReply): (badge: Option<bool>)
    ensures reply.NoReceiver? ==> badge == Some(true)
    ensures reply.Response? ==> badge == reply.enabled
  {
    match reply
    case NoReceiver => Some(true)
    case Response(e) => e
  }

  /** The gate: a page of a host that is not allowlisted is never sent `TOGGLE`, and its
      badge goes to OFF. */
  lemma NotAllowlistedNeverToggled(id: int, host: string, allowlist: seq<string>)
    requires id != 0 && host != "" && !IsAllowlistedHost(host, allowlist)
    ensures ToggleForActiveTab(Some(Tab(Some(id), host)), allowlist) == BadgeOff(id)
  {
  }
}

=== FILE: bolding.dfy ===
/**
 The pure part of the content script's transform (`src/content/index.js`): how many leading
 letters of a word are bolded (`lettersForWord`), and how a text is cut into maximal
 `[A-Za-z0-9]+` runs and the gaps between them and rendered as a fragment of bold heads and
 plain text (`buildFragment`).

 The DOM fragment is modelled as a sequence of segments: `Bold(s)` for a `span.hl-bold` holding
 `s`, `Plain(s)` for a text node holding `s`.
 */
module Bolding {
  import opened Wrappers
  import opened Text

  /** `MAX_BOLD`: no word gets more than this many bold letters. */
  const MaxBold: nat := 6

  function Min(a: int, b: int): int
  {
    if a <= b then a else b
  }

  function Max(a: int, b: int): int
  {
    if a <= b then b else a
  }

  /** `Math.ceil(len * 0.4)` in exact arithmetic: the least `k` with `5 * k >= 2 * len`. */
  function CeilTwoFifths(len: nat): (k: nat)
    ensures 5 * k >= 2 * len
    ensures k == 0 || 5 * (k - 1) < 2 * len
  {
    (2 * len + 4) / 5
  }

  /** `lettersForWord(word)` (lines 106-115). */
  function LettersForWord(word: string): (n: nat)
    ensures |word| == 0 ==> n == 0
    ensures 1 <= |word| <= 3 ==> n == 1
    ensures 4 <= |word| <= 6 ==> 2 <= n <= 3 && n == CeilTwoFifths(|word|)
    ensures |word| > 6 ==> n == Min(MaxBold, CeilTwoFifths(|word|)) && 3 <= n
    ensures |word| > 0 ==> 1 <= n <= Min(|word|, MaxBold)
  {
    var len := |word|;
    if len == 0 then 0
    else if len <= 3 then 1
    else if len <= 6 then Min(3, Max(2, CeilTwoFifths(len)))
    else Min(MaxBold, CeilTwoFifths(len))
  }

  /** "ab" and "cat" get one letter, "banana" three, and a twenty-letter word is capped at
      six. */
  lemma LettersExamples()
    ensures LettersForWord("ab") == 1
    ensures LettersForWord("cat") == 1
    ensures LettersForWord("banana") == 3
    ensures LettersForWord("internationalization") == 6
  {
  }

  // ---------------------------------------------------------------------------
  // words and gaps

  /** A character of `/[A-Za-z0-9]/`. */
  predicate IsWordChar(c: char)
  {
    ('A' <= c <= 'Z') || ('a' <= c <= 'z') || ('0' <= c <= '9')
  }

  /** A maximal run of word characters, or the text between two such runs. */
  datatype Token = Word(chars: string) | Gap(chars: string)

  /** A word is non-empty and all word characters; a gap is non-empty and has none. */
  predicate TokenOk(t: Token)
  {
    |t.chars| > 0 && forall i | 0 <= i < |t.chars| :: IsWordChar(t.chars[i]) == t.Word?
  }

  /** Every token is proper and words and gaps alternate, so every word is a maximal run. */
  predicate WellFormed(ts: seq<Token>)
  {
    && (forall i | 0 <= i < |ts| :: TokenOk(ts[i]))
    && (forall i | 0 <= i < |ts| - 1 :: ts[i].Word? != ts[i + 1].Word?)
  }

  /** The text the tokens stand for. */
  function Flatten(ts: seq<Token>): string
  {
    if |ts| == 0 then "" else ts[0].chars + Flatten(ts[1..])
  }

  /** The length of the longest prefix of `s` whose characters are word characters exactly
      when `word` is true. */
  function RunLength(s: string, word: bool): (k: nat)
    ensures k <= |s|
    ensures forall i | 0 <= i < k :: IsWordChar(s[i]) == word
    ensures k < |s| ==> IsWordChar(s[k]) != word
  {
    if |s| == 0 || IsWordChar(s[0]) != word then 0 else 1 + RunLength(s[1..], word)
  }

  lemma {:induction false} RunLengthExact(s: string, word: bool, m: nat)
    requires m <= |s|
    requires forall i | 0 <= i < m :: IsWordChar(s[i]) == word
    requires m < |s| ==> IsWordChar(s[m]) != word
    ensures RunLength(s, word) == m
  {
    if m > 0 {
      RunLengthExact(s[1..], word, m - 1);
    }
  }

  /** What the `wordRegex.exec` loop (lines 120-151) walks through: maximal word runs and
      the gaps before, between and after them, in order. */
  function Tokenize(text: string): (ts: seq<Token>)
    ensures Flatten(ts) == text
    ensures WellFormed(ts)
    ensures |text| > 0 ==> |ts| > 0 && ts[0].Word? == IsWordChar(text[0])
    decreases |text|
  {
    if |text| == 0 then []
    else
      var word := IsWordChar(text[0]);
      var k := RunLength(text, word);
      var t := if word then Word(text[..k]) else Gap(text[..k]);
      var rest := Tokenize(text[k..]);
      TokenCons(text, k, t, rest);
      [t] + rest
  }

  /** A maximal first run followed by a tokenisation of the remainder tokenises the whole. */
  lemma TokenCons(text: string, k: nat, t: Token, rest: seq<Token>)
    requires 0 < |text| && k == RunLength(text, IsWordChar(text[0]))
    requires t.chars == text[..k] && t.Word? == IsWordChar(text[0])
    requires Flatten(rest) == text[k..] && WellFormed(rest)
    requires k < |text| ==> |rest| > 0 && rest[0].Word? == IsWordChar(text[k])
    ensures Flatten([t] + rest) == text && WellFormed([t] + rest)
  {
    var ts := [t] + rest;
    assert ts[1..] == rest;
    assert text == text[..k] + text[k..];
    assert TokenOk(t) by {
      forall i | 0 <= i < k ensures IsWordChar(t.chars[i]) == t.Word? {
        assert t.chars[i] == text[i];
      }
    }
    assert forall i | 1 <= i < |ts| :: ts[i] == rest[i - 1];
  }

  /** The first token of a proper, alternating tokenisation of `text` is the first maximal run. */
  lemma FirstTokenIsRun(text: string, ts: seq<Token>)
    requires WellFormed(ts) && Flatten(ts) == text && |ts| > 0
    ensures |text| > 0 && ts[0].Word? == IsWordChar(text[0])
    ensures RunLength(text, ts[0].Word?) == |ts[0].chars|
    ensures text[..|ts[0].chars|] == ts[0].chars && text[|ts[0].chars|..] == Flatten(ts[1..])
  {
    var t := ts[0];
    var rest := ts[1..];
    assert TokenOk(t);
    var m := |t.chars|;
    assert text == t.chars + Flatten(rest);
    var word := t.Word?;
    forall i | 0 <= i < m ensures IsWordChar(text[i]) == word {
      assert text[i] == t.chars[i];
    }
    if m < |text| {
      assert TokenOk(rest[0]);
      assert Flatten(rest) == rest[0].chars + Flatten(rest[1..]);
      assert text[m] == rest[0].chars[0];
    }
    RunLengthExact(text, word, m);
  }

  /** The tokenisation is the only one: any proper, alternating token sequence spelling
      `text` is `Tokenize(text)`. */
  lemma {:induction false} TokenizeUnique(text: string, ts: seq<Token>)
    requires WellFormed(ts) && Flatten(ts) == text
    ensures ts == Tokenize(text)
    decreases |text|
  {
    if |ts| > 0 {
      FirstTokenIsRun(text, ts);
      var m := |ts[0].chars|;
      assert WellFormed(ts[1..]);
      TokenizeUnique(text[m..], ts[1..]);
      assert ts == [ts[0]] + ts[1..];
    }
  }

  // ---------------------------------------------------------------------------
  // the fragment

  /** A child of the fragment: a bold span or a text node. */
  datatype Segment = Bold(text: string) | Plain(text: string)

  /** The text the segments display, in order. */
  function SegmentsText(segs: seq<Segment>): string
  {
    if |segs| == 0 then "" else segs[0].text + SegmentsText(segs[1..])
  }

  lemma {:induction false} SegmentsTextAppend(a: seq<Segment>, b: seq<Segment>)
    ensures SegmentsText(a + b) == SegmentsText(a) + SegmentsText(b)
  {
    if |a| > 0 {
      assert (a + b)[1..] == a[1..] + b;
      SegmentsTextAppend(a[1..], b);
    } else {
      assert a + b == b;
    }
  }

  /** How many leading letters of a word are bold: `Math.min(lettersForWord(word), word.length)`. */
  function HeadLength(w: string): (n: nat)
    requires |w| > 0
    ensures 1 <= n <= Min(|w|, MaxBold)
  {
    Min(LettersForWord(w), |w|)
  }

  /** The segments for one token (lines 129-146): a gap verbatim; a word as a bold head and,
      when something is left, a plain tail. */
  function RenderToken(t: Token): (segs: seq<Segment>)
    requires TokenOk(t)
    ensures SegmentsText(segs) == t.chars
    ensures t.Gap? ==> segs == [Plain(t.chars)]
    ensures t.Word? ==>
      && 1 <= |segs| <= 2
      && segs[0] == Bold(t.chars[..HeadLength(t.chars)])
      && (|segs| == 2 <==> HeadLength(t.chars) < |t.chars|)
      && (|segs| == 2 ==> segs[1] == Plain(t.chars[HeadLength(t.chars)..]))
  {
    match t
    case Gap(g) =>
      assert SegmentsText([Plain(g)]) == g + SegmentsText([]);
      [Plain(g)]
    case Word(w) =>
      var n := HeadLength(w);
      var head := [Bold(w[..n])];
      var tail := if n < |w| then [Plain(w[n..])] else [];
      SegmentsTextAppend(head, tail);
      assert SegmentsText(head) == w[..n] + SegmentsText([]);
      assert n < |w| ==> SegmentsText(tail) == w[n..] + SegmentsText([]);
      assert w == w[..n] + w[n..];
      head + tail
  }

  /** A bold segment is non-empty, at most `MaxBold` long and made of word characters;
      a plain segment is non-empty. */
  predicate SegmentOk(s: Segment)
  {
    && |s.text| > 0
    && (s.Bold? ==> |s.text| <= MaxBold && forall i | 0 <= i < |s.text| :: IsWordChar(s.text[i]))
  }

  /** The segments for a token sequence, token by token. */
  function Render(ts: seq<Token>): (segs: seq<Segment>)
    requires forall i | 0 <= i < |ts| :: TokenOk(ts[i])
    ensures SegmentsText(segs) == Flatten(ts)
    ensures forall j | 0 <= j < |segs| :: SegmentOk(segs[j])
  {
    if |ts| == 0 then []
    else
      var first := RenderToken(ts[0]);
      var rest := Render(ts[1..]);
      SegmentsTextAppend(first, rest);
      assert forall j | 0 <= j < |first| :: SegmentOk(first[j]) by {
        if ts[0].Word? {
          var w := ts[0].chars;
          assert forall i | 0 <= i < |first[0].text| :: first[0].text[i] == w[i];
        }
      }
      first + rest
  }

  /** Every bold segment is the head of one of the words, as `HeadLength` cuts it. */
  lemma {:induction false} BoldSegmentsAreWordHeads(ts: seq<Token>, j: nat)
    requires forall i | 0 <= i < |ts| :: TokenOk(ts[i])
    requires j < |Render(ts)| && Render(ts)[j].Bold?
    ensures exists i | 0 <= i < |ts| :: ts[i].Word? && Render(ts)[j].text == ts[i].chars[..HeadLength(ts[i].chars)]
  {
    var first := RenderToken(ts[0]);
    assert Render(ts) == first + Render(ts[1..]);
    if j < |first| {
      assert j == 0 && ts[0].Word?;
    } else {
      BoldSegmentsAreWordHeads(ts[1..], j - |first|);
      var i :| 0 <= i < |ts[1..]| && ts[1..][i].Word?
        && Render(ts[1..])[j - |first|].text == ts[1..][i].chars[..HeadLength(ts[1..][i].chars)];
      assert ts[i + 1] == ts[1..][i];
    }
  }

  /** Every plain segment is a whole gap, which holds no word character, or the tail of a
      word after its bold head. */
  lemma {:induction false} PlainSegmentsAreGapsOrTails(ts: seq<Token>, j: nat)
    requires forall i | 0 <= i < |ts| :: TokenOk(ts[i])
    requires j < |Render(ts)| && Render(ts)[j].Plain?
    ensures exists i | 0 <= i < |ts| ::
      || (ts[i].Gap? && Render(ts)[j].text == ts[i].chars
          && forall k | 0 <= k < |ts[i].chars| :: !IsWordChar(ts[i].chars[k]))
      || (ts[i].Word? && Render(ts)[j].text == ts[i].chars[HeadLength(ts[i].chars)..])
  {
    var first := RenderToken(ts[0]);
    assert Render(ts) == first + Render(ts[1..]);
    if j < |first| {
      assert TokenOk(ts[0]);
    } else {
      PlainSegmentsAreGapsOrTails(ts[1..], j - |first|);
      var i :| 0 <= i < |ts[1..]| &&
        (|| (ts[1..][i].Gap? && Render(ts[1..])[j - |first|].text == ts[1..][i].chars
             && forall k | 0 <= k < |ts[1..][i].chars| :: !IsWordChar(ts[1..][i].chars[k]))
         || (ts[1..][i].Word? && Render(ts[1..])[j - |first|].text == ts[1..][i].chars[HeadLength(ts[1..][i].chars)..]));
      assert ts[i + 1] == ts[1..][i];
    }
  }

  /** `buildFragment(text)` (lines 117-154): a blank text comes back as it is (`None`: the
      caller sees a string and does nothing); any other text becomes its segments. */
  function BuildFragment(text: string): (r: Option<seq<Segment>>)
    ensures r.None? <==> IsBlank(text)
    ensures r.Some? ==> SegmentsText(r.value) == text
    ensures r.Some? ==> forall j | 0 <= j < |r.value| :: SegmentOk(r.value[j])
  {
    if IsBlank(text) then None else Some(Render(Tokenize(text)))
  }

  /** `s` is the bold head of one of the words among `ts`. */
  predicate IsWordHead(s: string, ts: seq<Token>)
  {
    exists i | 0 <= i < |ts| :: ts[i].Word? && |ts[i].chars| > 0 && s == ts[i].chars[..HeadLength(ts[i].chars)]
  }

  /** Every bold segment of a fragment is the head of one of the words of the text. */
  lemma FragmentBoldIsHead(text: string, j: nat)
    requires !IsBlank(text)
    requires j < |BuildFragment(text).value| && BuildFragment(text).value[j].Bold?
    ensures IsWordHead(BuildFragment(text).value[j].text, Tokenize(text))
  {
    var ts := Tokenize(text);
    assert BuildFragment(text).value == Render(ts);
    assert forall i | 0 <= i < |ts| :: TokenOk(ts[i]);
    BoldSegmentsAreWordHeads(ts, j);
    var i :| 0 <= i < |ts| && ts[i].Word? && Render(ts)[j].text == ts[i].chars[..HeadLength(ts[i].chars)];
    assert TokenOk(ts[i]);
  }

  /** "Hi, you!" is cut into two words and two gaps. */
  lemma TokenizeExample()
    ensures Tokenize("Hi, you!") == [Word("Hi"), Gap(", "), Word("you"), Gap("!")]
  {
    var ts := [Word("Hi"), Gap(", "), Word("you"), Gap("!")];
    assert WellFormed(ts);
    assert Flatten(ts) == "Hi, you!" by {
      assert Flatten(ts[3..]) == "!";
      assert Flatten(ts[2..]) == "you!";
      assert Flatten(ts[1..]) == ", you!";
    }
    TokenizeUnique("Hi, you!", ts);
  }

  lemma RenderCons(ts: seq<Token>)
    requires |ts| > 0 && forall i | 0 <= i < |ts| :: TokenOk(ts[i])
    ensures Render(ts) == RenderToken(ts[0]) + Render(ts[1..])
  {
  }

  lemma RenderWordExamples()
    ensures RenderToken(Word("Hi")) == [Bold("H"), Plain("i")]
    ensures RenderToken(Word("you")) == [Bold("y"), Plain("ou")]
  {
    assert "you"[..1] == "y" && "you"[1..] == "ou";
    assert "Hi"[..1] == "H" && "Hi"[1..] == "i";
  }

  lemma RenderExample()
    ensures Render([Word("Hi"), Gap(", "), Word("you"), Gap("!")])
         == [Bold("H"), Plain("i"), Plain(", "), Bold("y"), Plain("ou"), Plain("!")]
  {
    var ts := [Word("Hi"), Gap(", "), Word("you"), Gap("!")];
    RenderWordExamples();
    RenderCons(ts[3..]);
    assert ts[3..][1..] == [];
    RenderCons(ts[2..]);
    assert ts[2..][1..] == ts[3..];
    RenderCons(ts[1..]);
    assert ts[1..][1..] == ts[2..];
    RenderCons(ts);
  }

  /** Cutting "Hi, you!" gives one-letter heads and verbatim gaps. */
  lemma FragmentExample()
    ensures BuildFragment("Hi, you!") == Some([Bold("H"), Plain("i"), Plain(", "), Bold("y"), Plain("ou"), Plain("!")])
  {
    assert !IsTrimSpace("Hi, you!"[0]);
    TokenizeExample();
    RenderExample();
  }
}

=== FILE: content_script.dfy ===
/**
 The content script's run state (`src/content/index.js`): the blocked-host check, `apply`,
 `setEnabled`/`toggle`, the `TOGGLE`/`STATE` message handler and the start-up pass.

 The page's hostname and the blocked-host list are fixed for the life of the script and are
 passed in as an environment; the page body is the abstract tree of `Document`.
 */
module ContentScript {
  import opened Wrappers
  import opened Text
  import opened Hosts
  import opened Document

  /** What the script reads from its surroundings: `location.hostname` and `BLOCKED_HOSTS`. */
  datatype Env = Env(hostname: string, blockedHosts: seq<string>)

  /** The `enabled` flag and the current `document.body`. */
  datatype Page = Page(enabled: bool, body: Node)

  /** `isBlockedHost` (lines 100-104): the lower-cased hostname is blocked when it is non-empty
      and is some entry or a subdomain of one. */
  function IsBlockedHost(env: Env): (r: bool)
    ensures env.hostname == "" ==> !r
    ensures env.hostname != "" ==>
      (r <==> exists i | 0 <= i < |env.blockedHosts| ::
                var host := Lower(env.hostname);
                host == env.blockedHosts[i] || IsSubdomainOf(host, env.blockedHosts[i]))
  {
    var host := Lower(env.hostname);
    if host == "" then false else MatchesAny(host, env.blockedHosts)
  }

  /** `apply` (lines 196-200): nothing on a blocked host, otherwise one walk over the body.
      The flag is not consulted or changed. */
  function Apply(page: Page, env: Env): (r: Page)
    ensures r.enabled == page.enabled
    ensures TextContent(r.body) == TextContent(page.body)
    ensures IsBlockedHost(env) ==> r == page
    ensures !IsBlockedHost(env) ==> WalkAndProcess(r.body) == r.body
    ensures WrappersBolded(page.body) ==> WrappersBolded(r.body)
    ensures !IsBlockedHost(env) && NoProcessed(page.body) ==>
      && Reset(r.body) == page.body
      && WrappedTexts(r.body) == Collect(page.body, PageCtx)
      && WrappersBolded(r.body)
  {
    WalkKeepsText(page.body);
    ProcessIdempotent(page.body, PageCtx);
    WalkOfCleanPage(page.body);
    if IsBlockedHost(env) then page else page.(body := WalkAndProcess(page.body))
  }

  /** `setEnabled(next)` (lines 213-221): the flag becomes `next` unless the host is blocked;
      an enabled page is walked, a disabled one reset. The returned flag is `r.enabled`. */
  function SetEnabled(page: Page, next: bool, env: Env): (r: Page)
    ensures r.enabled <==> next && !IsBlockedHost(env)
    ensures TextContent(r.body) == TextContent(page.body)
    ensures !r.enabled ==> NoProcessed(r.body)
    ensures r.enabled ==> WalkAndProcess(r.body) == r.body
    ensures WrappersBolded(page.body) ==> WrappersBolded(r.body)
  {
    var enabled := next && !IsBlockedHost(env);
    if enabled then
      ProcessIdempotent(page.body, PageCtx);
      Apply(Page(enabled, page.body), env)
    else
      ResetKeepsText(page.body);
      ResetRemovesWrappers(page.body);
      NoProcessedBolded(Reset(page.body));
      Page(enabled, Reset(page.body))
  }

  /** `toggle` (lines 227-229). */
  function Toggle(page: Page, env: Env): (r: Page)
    ensures r.enabled <==> !page.enabled && !IsBlockedHost(env)
    ensures TextContent(r.body) == TextContent(page.body)
    ensures !r.enabled ==> NoProcessed(r.body)
    ensures r.enabled ==> WalkAndProcess(r.body) == r.body
    ensures r.enabled && NoProcessed(page.body) ==> Reset(r.body) == page.body && WrappersBolded(r.body)
    ensures WrappersBolded(page.body) ==> WrappersBolded(r.body)
  {
    WalkOfCleanPage(page.body);
    SetEnabled(page, !page.enabled, env)
  }

  /** On a blocked host `toggle` always answers false, and it leaves no wrapper behind. */
  lemma ToggleOnBlockedHost(page: Page, env: Env)
    requires IsBlockedHost(env)
    ensures !Toggle(page, env).enabled
    ensures NoProcessed(Toggle(page, env).body)
  {
  }

  /** Switching on and then off again gives back the page exactly as it was, provided it held
      no wrapper to begin with. */
  lemma {:induction false} ToggleTwiceRestores(page: Page, env: Env)
    requires !page.enabled && NoProcessed(page.body) && !IsBlockedHost(env)
    ensures Toggle(page, env).enabled
    ensures Toggle(Toggle(page, env), env) == page
  {
    ResetUndoesProcess(page.body, PageCtx);
  }

  /** Disabling twice does nothing more than disabling once. */
  lemma {:induction false} DisableIdempotent(page: Page, env: Env)
    ensures SetEnabled(SetEnabled(page, false, env), false, env) == SetEnabled(page, false, env)
  {
    ResetIdempotent(page.body);
  }

  /** Enabling twice does nothing more than enabling once. */
  lemma {:induction false} EnableIdempotent(page: Page, env: Env)
    ensures SetEnabled(SetEnabled(page, true, env), true, env) == SetEnabled(page, true, env)
  {
    ProcessIdempotent(page.body, PageCtx);
    ResetIdempotent(page.body);
  }

  // ---------------------------------------------------------------------------
  // messages

  /** An incoming message: `kind` is its `type` when that is a string, `None` when the message
      is missing or its `type` is not a string. */
  datatype Message = Message(kind: Option<string>)

  /** The page afterwards and the response sent, if any (`{ enabled }` as its flag). */
  datatype Handled = Handled(page: Page, reply: Option<bool>)

  /** The `chrome.runtime.onMessage` listener (lines 231-241). */
  function OnMessage(page: Page, msg: Message, env: Env): (r: Handled)
    ensures msg.kind == Some("TOGGLE") ==>
      r.page == Toggle(page, env) && r.reply == Some(r.page.enabled)
    ensures msg.kind == Some("STATE") ==> r.page == page && r.reply == Some(page.enabled)
    ensures msg.kind != Some("TOGGLE") ==> r.page == page
    ensures r.reply.Some? <==> msg.kind == Some("TOGGLE") || msg.kind == Some("STATE")
  {
    match msg.kind
    case None => Handled(page, None)
    case Some(kind) =>
      if kind == "TOGGLE" then
        var next := Toggle(page, env);
        Handled(next, Some(next.enabled))
      else if kind == "STATE" then Handled(page, Some(page.enabled))
      else Handled(page, None)
  }

  /** A `STATE` query never changes anything, and a `TOGGLE` on a blocked host always answers
      `false`. */
  lemma MessageProperties(page: Page, env: Env)
    ensures OnMessage(page, Message(Some("STATE")), env).page == page
    ensures IsBlockedHost(env) ==> OnMessage(page, Message(Some("TOGGLE")), env).reply == Some(false)
  {
  }

  // ---------------------------------------------------------------------------
  // start-up

  /** The script's start-up (lines 73, 243-249): the flag starts `true` and the body is walked
      once, whichever branch of the ready-state test runs. */
  function Boot(body: Node, env: Env): (r: Page)
    ensures r.enabled
    ensures TextContent(r.body) == TextContent(body)
    ensures IsBlockedHost(env) ==> r.body == body
    ensures !IsBlockedHost(env) ==> WalkAndProcess(r.body) == r.body
    ensures WrappersBolded(body) ==> WrappersBolded(r.body)
    ensures !IsBlockedHost(env) && NoProcessed(body) ==>
      && Reset(r.body) == body
      && WrappedTexts(r.body) == Collect(body, PageCtx)
      && WrappersBolded(r.body)
  {
    Apply(Page(true, body), env)
  }

  /** The flag starts `true` even on a blocked host: right after start-up a `STATE` query there
      answers `true` although nothing was transformed, and the first `TOGGLE` answers `false`. */
  lemma BootOnBlockedHost(body: Node, env: Env)
    requires IsBlockedHost(env)
    ensures OnMessage(Boot(body, env), Message(Some("STATE")), env).reply == Some(true)
    ensures Boot(body, env).body == body
    ensures OnMessage(Boot(body, env), Message(Some("TOGGLE")), env).reply == Some(false)
  {
  }
}

=== FILE: document.dfy ===
/**
 The page transform of the content script (`src/content/index.js`) over an abstract document
 tree: which text nodes qualify (`shouldSkipElement`, `isInsideProcessed`, `hasText`), the walk
 that wraps every qualifying text node in a `span.hl-processed` (`walkAndProcess`,
 `processTextNode`), and the reversal that turns every processed wrapper back into one text
 node (`resetProcessed`).

 A node is a text node or an element with a tag name, a class set, its own `contenteditable`
 setting and its children. What a text node's fate depends on — whether its parent element is
 skipped, whether that parent is editable, whether it lies under a processed wrapper — is
 carried down the tree as a context.
 */
module Document {
  import opened Text
  import opened Bolding

  /** `CONFIG.processedClass`: the class of a wrapper produced by the transform. */
  const ProcessedClass := "hl-processed"

  /** `CONFIG.boldClass`: the class of a bold head. */
  const BoldClass := "hl-bold"

  /** `SKIP_TAGS`: text directly inside these elements is never transformed. */
  const SkipTags: set<string> :=
    {"SCRIPT", "STYLE", "NOSCRIPT", "TEXTAREA", "INPUT", "SELECT", "OPTION", "CODE", "PRE"}

  /** An element's own `contenteditable` setting: on, off, or taken from its parent. */
  datatype Editable = On | Off | Inherit

  datatype Node =
    | TextNode(value: string)
    | Element(tag: string, classes: set<string>, editable: Editable, children: seq<Node>)

  /** What a node's parent element looks like to the filter: whether it is skipped
      (`shouldSkipElement`), whether it is editable (`isContentEditable`), and whether it or an
      ancestor carries the processed class (`isInsideProcessed`). */
  datatype Ctx = Ctx(skipped: bool, editable: bool, processed: bool)

  /** The context of `document.body`'s children is computed from `<html>`, which is taken to be
      a plain, non-editable element without the processed class. */
  const PageCtx := Ctx(false, false, false)

  /** `isContentEditable` of an element whose parent's is `inherited`. */
  function IsEditable(e: Editable, inherited: bool): (b: bool)
    ensures e.Inherit? ==> b == inherited
    ensures !e.Inherit? ==> b == e.On?
  {
    match e
    case On => true
    case Off => false
    case Inherit => inherited
  }

  /** The context an element's children see. */
  function ChildCtx(ctx: Ctx, tag: string, classes: set<string>, editable: Editable): (c: Ctx)
    ensures c.editable == IsEditable(editable, ctx.editable)
    ensures c.skipped <==> tag in SkipTags || c.editable
    ensures c.processed <==> ctx.processed || ProcessedClass in classes
  {
    var ed := IsEditable(editable, ctx.editable);
    Ctx(tag in SkipTags || ed, ed, ctx.processed || ProcessedClass in classes)
  }

  /** The walker's `acceptNode` and the guards of `processTextNode` (lines 157-161, 177-182):
      the text is not blank, its parent is not skipped, and it is not inside a wrapper. */
  predicate Accepts(value: string, ctx: Ctx)
    ensures Accepts(value, ctx) <==> Trim(value) != "" && !ctx.skipped && !ctx.processed
  {
    !IsBlank(value) && !ctx.skipped && !ctx.processed
  }

  // ---------------------------------------------------------------------------
  // text content

  /** `textContent`: the text of all text nodes below, in document order. */
  function TextContent(n: Node): string
    decreases n
  {
    match n
    case TextNode(v) => v
    case Element(_, _, _, cs) => ChildrenText(cs)
  }

  function ChildrenText(cs: seq<Node>): string
    decreases cs
  {
    if |cs| == 0 then "" else TextContent(cs[0]) + ChildrenText(cs[1..])
  }

  // ---------------------------------------------------------------------------
  // the wrapper

  /** A fragment's segment as a node: a bold head is a `span.hl-bold` holding one text node. */
  function SegmentNode(s: Segment): Node
  {
    match s
    case Bold(h) => Element("SPAN", {BoldClass}, Inherit, [TextNode(h)])
    case Plain(p) => TextNode(p)
  }

  function SegmentNodes(segs: seq<Segment>): (ns: seq<Node>)
    ensures |ns| == |segs|
    ensures forall i | 0 <= i < |segs| :: ns[i] == SegmentNode(segs[i])
    ensures ChildrenText(ns) == SegmentsText(segs)
  {
    if |segs| == 0 then []
    else
      var ns := [SegmentNode(segs[0])] + SegmentNodes(segs[1..]);
      assert ns[1..] == SegmentNodes(segs[1..]);
      assert TextContent(ns[0]) == segs[0].text by {
        if segs[0].Bold? {
          assert ChildrenText([TextNode(segs[0].text)]) == segs[0].text + ChildrenText([]);
        }
      }
      ns
  }

  /** The `span.hl-processed` that replaces a non-blank text node (lines 163-169). */
  function Wrap(value: string): (w: Node)
    requires !IsBlank(value)
    ensures w.Element? && w.tag == "SPAN" && ProcessedClass in w.classes
    ensures TextContent(w) == value
    ensures w.children == SegmentNodes(BuildFragment(value).value)
  {
    Element("SPAN", {ProcessedClass}, Inherit, SegmentNodes(BuildFragment(value).value))
  }

  /** `node` is the bold span of the head of one of the words among `ts`. */
  predicate IsBoldHeadOf(node: Node, ts: seq<Token>)
  {
    exists t | 0 <= t < |ts| ::
      ts[t].Word? && |ts[t].chars| > 0
      && node == Element("SPAN", {BoldClass}, Inherit, [TextNode(ts[t].chars[..HeadLength(ts[t].chars)])])
  }

  /** Every element inside a wrapper is the bold span of the head of one of the words of the
      text. */
  lemma WrapBoldsWordHeads(value: string, i: nat)
    requires !IsBlank(value)
    requires i < |Wrap(value).children| && Wrap(value).children[i].Element?
    ensures IsBoldHeadOf(Wrap(value).children[i], Tokenize(value))
  {
    var segs := BuildFragment(value).value;
    assert Wrap(value).children[i] == SegmentNode(segs[i]);
    assert segs[i].Bold?;
    FragmentBoldIsHead(value, i);
    var ts := Tokenize(value);
    var t :| 0 <= t < |ts| && ts[t].Word? && |ts[t].chars| > 0 && segs[i].text == ts[t].chars[..HeadLength(ts[t].chars)];
    assert |ts[t].chars| > 0;
    assert Wrap(value).children[i] == Element("SPAN", {BoldClass}, Inherit, [TextNode(ts[t].chars[..HeadLength(ts[t].chars)])]);
  }

  /** `processTextNode` on a text node with context `ctx`: the node that stands in its place
      afterwards. */
  function ProcessTextNode(value: string, ctx: Ctx): (r: Node)
    ensures TextContent(r) == value
    ensures r.Element? <==> Accepts(value, ctx)
    ensures r.TextNode? ==> r == TextNode(value)
    ensures r.Element? ==> ProcessedClass in r.classes
    ensures r.Element? ==> r == Wrap(value)
  {
    if Accepts(value, ctx) then Wrap(value) else TextNode(value)
  }

  // ---------------------------------------------------------------------------
  // the walk

  /** `walkAndProcess` below a node whose parent has context `ctx`. The walker first collects
      the accepted text nodes and then replaces each; replacing one text node changes neither
      the parent nor the ancestors of another, so the collected nodes are exactly the ones
      replaced and the two phases amount to this single pass. */
  function Process(n: Node, ctx: Ctx): (r: Node)
    ensures n.TextNode? ==> TextContent(r) == n.value && (r.Element? <==> Accepts(n.value, ctx))
    ensures n.TextNode? && !Accepts(n.value, ctx) ==> r == n
    ensures n.TextNode? ==> r == ProcessTextNode(n.value, ctx)
    ensures n.Element? ==>
      && r.Element? && r.tag == n.tag && r.classes == n.classes && r.editable == n.editable
      && |r.children| == |n.children|
    ensures n.Element? ==> r.children == ProcessAll(n.children, ChildCtx(ctx, n.tag, n.classes, n.editable))
    decreases n
  {
    match n
    case TextNode(v) => ProcessTextNode(v, ctx)
    case Element(t, c, e, cs) => Element(t, c, e, ProcessAll(cs, ChildCtx(ctx, t, c, e)))
  }

  function ProcessAll(cs: seq<Node>, ctx: Ctx): (r: seq<Node>)
    ensures |r| == |cs|
    decreases cs
  {
    if |cs| == 0 then [] else [Process(cs[0], ctx)] + ProcessAll(cs[1..], ctx)
  }

  /** What `apply` does to the page: walk and process from `document.body`. */
  function WalkAndProcess(body: Node): (r: Node)
    ensures TextContent(r) == TextContent(body)
    ensures Process(r, PageCtx) == r
    ensures WrappersBolded(body) ==> WrappersBolded(r)
  {
    ProcessKeepsText(body, PageCtx);
    ProcessIdempotent(body, PageCtx);
    WalkKeepsBolded(body);
    Process(body, PageCtx)
  }

  /** The walker's first phase: the values of the accepted text nodes, in document order. */
  function Collect(n: Node, ctx: Ctx): (r: seq<string>)
    ensures forall i | 0 <= i < |r| :: !IsBlank(r[i])
    ensures ctx.processed ==> r == []
    decreases n
  {
    match n
    case TextNode(v) => if Accepts(v, ctx) then [v] else []
    case Element(t, c, e, cs) => CollectAll(cs, ChildCtx(ctx, t, c, e))
  }

  function CollectAll(cs: seq<Node>, ctx: Ctx): (r: seq<string>)
    ensures forall i | 0 <= i < |r| :: !IsBlank(r[i])
    ensures ctx.processed ==> r == []
    decreases cs
  {
    if |cs| == 0 then [] else Collect(cs[0], ctx) + CollectAll(cs[1..], ctx)
  }

  // ---------------------------------------------------------------------------
  // the reversal

  /** `resetProcessed` (lines 202-207): every outermost element with the processed class
      becomes a single text node holding its `textContent`. A wrapper nested in another needs nothing
      more: by the time the query list reaches it, its outer wrapper has left the page, so its
      own replacement happens in a detached subtree. */
  function Reset(n: Node): (r: Node)
    ensures n.TextNode? ==> r == n
    ensures n.Element? && ProcessedClass in n.classes ==> r == TextNode(TextContent(n))
    ensures r.Element? ==>
      && n.Element? && ProcessedClass !in n.classes
      && r.tag == n.tag && r.classes == n.classes && r.editable == n.editable
      && |r.children| == |n.children|
    decreases n
  {
    match n
    case TextNode(_) => n
    case Element(t, c, e, cs) =>
      if ProcessedClass in c then TextNode(ChildrenText(cs)) else Element(t, c, e, ResetAll(cs))
  }

  function ResetAll(cs: seq<Node>): (r: seq<Node>)
    ensures |r| == |cs|
    decreases cs
  {
    if |cs| == 0 then [] else [Reset(cs[0])] + ResetAll(cs[1..])
  }

  /** No element with the processed class anywhere in the tree. */
  predicate NoProcessed(n: Node)
    decreases n
  {
    match n
    case TextNode(_) => true
    case Element(_, c, _, cs) => ProcessedClass !in c && NoProcessedAll(cs)
  }

  predicate NoProcessedAll(cs: seq<Node>)
    decreases cs
  {
    |cs| == 0 || (NoProcessed(cs[0]) && NoProcessedAll(cs[1..]))
  }

  /** Every outermost element with the processed class is the wrapper `processTextNode` builds
      for its own text: a `span.hl-processed` holding the fragment of bold heads and the rest. */
  predicate WrappersBolded(n: Node)
    decreases n
  {
    match n
    case TextNode(_) => true
    case Element(_, c, _, cs) =>
      if ProcessedClass in c then !IsBlank(ChildrenText(cs)) && n == Wrap(ChildrenText(cs))
      else WrappersBoldedAll(cs)
  }

  predicate WrappersBoldedAll(cs: seq<Node>)
    decreases cs
  {
    |cs| == 0 || (WrappersBolded(cs[0]) && WrappersBoldedAll(cs[1..]))
  }

  /** The texts of the outermost processed wrappers, in document order. */
  function WrappedTexts(n: Node): seq<string>
    decreases n
  {
    match n
    case TextNode(_) => []
    case Element(_, c, _, cs) => if ProcessedClass in c then [ChildrenText(cs)] else WrappedTextsAll(cs)
  }

  function WrappedTextsAll(cs: seq<Node>): seq<string>
    decreases cs
  {
    if |cs| == 0 then [] else WrappedTexts(cs[0]) + WrappedTextsAll(cs[1..])
  }

  // ---------------------------------------------------------------------------
  // properties

  /** The transform keeps the text content of every node. */
  lemma {:induction false} ProcessKeepsText(n: Node, ctx: Ctx)
    ensures TextContent(Process(n, ctx)) == TextContent(n)
    decreases n
  {
    match n
    case TextNode(v) =>
    case Element(t, c, e, cs) => ProcessAllKeepsText(cs, ChildCtx(ctx, t, c, e));
  }

  lemma {:induction false} ProcessAllKeepsText(cs: seq<Node>, ctx: Ctx)
    ensures ChildrenText(ProcessAll(cs, ctx)) == ChildrenText(cs)
    decreases cs
  {
    if |cs| > 0 {
      ProcessKeepsText(cs[0], ctx);
      ProcessAllKeepsText(cs[1..], ctx);
      assert ProcessAll(cs, ctx)[1..] == ProcessAll(cs[1..], ctx);
    }
  }

  /** Applying the transform to the page keeps the text of the page. */
  lemma WalkKeepsText(body: Node)
    ensures TextContent(WalkAndProcess(body)) == TextContent(body)
  {
    ProcessKeepsText(body, PageCtx);
  }

  /** The walk handles each child on its own, in place. */
  lemma {:induction false} ProcessAllAt(cs: seq<Node>, ctx: Ctx, i: nat)
    requires i < |cs|
    ensures ProcessAll(cs, ctx)[i] == Process(cs[i], ctx)
    decreases i
  {
    if i > 0 {
      ProcessAllAt(cs[1..], ctx, i - 1);
    }
  }

  /** The reset handles each child on its own, in place. */
  lemma {:induction false} ResetAllAt(cs: seq<Node>, i: nat)
    requires i < |cs|
    ensures ResetAll(cs)[i] == Reset(cs[i])
    decreases i
  {
    if i > 0 {
      ResetAllAt(cs[1..], i - 1);
    }
  }

  /** On a page without wrappers, the walk wraps exactly the collected texts, each wrapper
      holds the bold fragment of its text, and the reset gives the page back. */
  lemma WalkOfCleanPage(body: Node)
    ensures NoProcessed(body) ==>
      && Reset(WalkAndProcess(body)) == body
      && WrappedTexts(WalkAndProcess(body)) == Collect(body, PageCtx)
      && WrappersBolded(WalkAndProcess(body))
  {
    if NoProcessed(body) {
      ResetUndoesProcess(body, PageCtx);
      ProcessWrapsCollected(body, PageCtx);
      NoProcessedBolded(body);
    }
  }

  /** A wrapper built by the walk is a bold wrapper of its own text. */
  lemma WrapIsBolded(value: string)
    requires !IsBlank(value)
    ensures WrappersBolded(Wrap(value))
  {
    assert ChildrenText(Wrap(value).children) == TextContent(Wrap(value)) == value;
  }

  /** The walk keeps every wrapper a bold wrapper and adds only bold wrappers: every text it
      replaces becomes the fragment of bold heads built for it. */
  lemma {:induction false} ProcessBoldsWrappers(n: Node, ctx: Ctx)
    requires WrappersBolded(n)
    ensures WrappersBolded(Process(n, ctx))
    decreases n
  {
    match n
    case TextNode(v) =>
      if Accepts(v, ctx) { WrapIsBolded(v); }
    case Element(t, c, e, cs) =>
      if ProcessedClass in c {
        ProcessAllInsideWrapper(cs, ChildCtx(ctx, t, c, e));
      } else {
        ProcessAllBoldsWrappers(cs, ChildCtx(ctx, t, c, e));
      }
  }

  lemma WalkKeepsBolded(body: Node)
    ensures WrappersBolded(body) ==> WrappersBolded(Process(body, PageCtx))
  {
    if WrappersBolded(body) { ProcessBoldsWrappers(body, PageCtx); }
  }

  lemma {:induction false} ProcessAllBoldsWrappers(cs: seq<Node>, ctx: Ctx)
    requires WrappersBoldedAll(cs)
    ensures WrappersBoldedAll(ProcessAll(cs, ctx))
    decreases cs
  {
    if |cs| > 0 {
      var r := ProcessAll(cs, ctx);
      assert r[0] == Process(cs[0], ctx) && r[1..] == ProcessAll(cs[1..], ctx);
      ProcessBoldsWrappers(cs[0], ctx);
      ProcessAllBoldsWrappers(cs[1..], ctx);
    }
  }

  /** A tree without wrappers has no badly built wrapper. */
  lemma {:induction false} NoProcessedBolded(n: Node)
    requires NoProcessed(n)
    ensures WrappersBolded(n)
    decreases n
  {
    match n
    case TextNode(_) =>
    case Element(_, _, _, cs) => NoProcessedAllBolded(cs);
  }

  lemma {:induction false} NoProcessedAllBolded(cs: seq<Node>)
    requires NoProcessedAll(cs)
    ensures WrappersBoldedAll(cs)
    decreases cs
  {
    if |cs| > 0 {
      NoProcessedBolded(cs[0]);
      NoProcessedAllBolded(cs[1..]);
    }
  }

  /** Nothing under a processed wrapper is touched. */
  lemma {:induction false} ProcessInsideWrapper(n: Node, ctx: Ctx)
    requires ctx.processed
    ensures Process(n, ctx) == n
    decreases n
  {
    match n
    case TextNode(v) =>
    case Element(t, c, e, cs) => ProcessAllInsideWrapper(cs, ChildCtx(ctx, t, c, e));
  }

  lemma {:induction false} ProcessAllInsideWrapper(cs: seq<Node>, ctx: Ctx)
    requires ctx.processed
    ensures ProcessAll(cs, ctx) == cs
    decreases cs
  {
    if |cs| > 0 {
      ProcessInsideWrapper(cs[0], ctx);
      ProcessAllInsideWrapper(cs[1..], ctx);
      assert cs == [cs[0]] + cs[1..];
    }
  }

  /** A wrapper is left alone by a second pass, wherever it sits. */
  lemma WrapStable(value: string, ctx: Ctx)
    requires !IsBlank(value)
    ensures Process(Wrap(value), ctx) == Wrap(value)
  {
    var w := Wrap(value);
    ProcessAllInsideWrapper(w.children, ChildCtx(ctx, w.tag, w.classes, w.editable));
  }

  /** Applying the transform twice is the same as applying it once. */
  lemma {:induction false} ProcessIdempotent(n: Node, ctx: Ctx)
    ensures Process(Process(n, ctx), ctx) == Process(n, ctx)
    decreases n
  {
    match n
    case TextNode(v) =>
      if Accepts(v, ctx) { WrapStable(v, ctx); }
    case Element(t, c, e, cs) => ProcessAllIdempotent(cs, ChildCtx(ctx, t, c, e));
  }

  lemma {:induction false} ProcessAllIdempotent(cs: seq<Node>, ctx: Ctx)
    ensures ProcessAll(ProcessAll(cs, ctx), ctx) == ProcessAll(cs, ctx)
    decreases cs
  {
    if |cs| > 0 {
      var once := ProcessAll(cs, ctx);
      assert once[0] == Process(cs[0], ctx) && once[1..] == ProcessAll(cs[1..], ctx);
      ProcessIdempotent(cs[0], ctx);
      ProcessAllIdempotent(cs[1..], ctx);
    }
  }

  /** The walk's collected list is exactly the list of wrappers the second phase creates: on
      a page without wrappers, the wrappers afterwards hold the accepted texts in order. */
  lemma {:induction false} ProcessWrapsCollected(n: Node, ctx: Ctx)
    requires NoProcessed(n)
    ensures WrappedTexts(Process(n, ctx)) == Collect(n, ctx)
    decreases n
  {
    match n
    case TextNode(v) =>
    case Element(t, c, e, cs) => ProcessAllWrapsCollected(cs, ChildCtx(ctx, t, c, e));
  }

  lemma {:induction false} ProcessAllWrapsCollected(cs: seq<Node>, ctx: Ctx)
    requires NoProcessedAll(cs)
    ensures WrappedTextsAll(ProcessAll(cs, ctx)) == CollectAll(cs, ctx)
    decreases cs
  {
    if |cs| > 0 {
      var r := ProcessAll(cs, ctx);
      assert r[0] == Process(cs[0], ctx) && r[1..] == ProcessAll(cs[1..], ctx);
      ProcessWrapsCollected(cs[0], ctx);
      ProcessAllWrapsCollected(cs[1..], ctx);
    }
  }

  /** Resetting keeps the text content. */
  lemma {:induction false} ResetKeepsText(n: Node)
    ensures TextContent(Reset(n)) == TextContent(n)
    decreases n
  {
    match n
    case TextNode(_) =>
    case Element(t, c, e, cs) =>
      if ProcessedClass !in c { ResetAllKeepsText(cs); }
  }

  lemma {:induction false} ResetAllKeepsText(cs: seq<Node>)
    ensures ChildrenText(ResetAll(cs)) == ChildrenText(cs)
    decreases cs
  {
    if |cs| > 0 {
      ResetKeepsText(cs[0]);
      ResetAllKeepsText(cs[1..]);
      assert ResetAll(cs)[1..] == ResetAll(cs[1..]);
    }
  }

  /** After a reset no wrapper is left. */
  lemma {:induction false} ResetRemovesWrappers(n: Node)
    ensures NoProcessed(Reset(n))
    decreases n
  {
    match n
    case TextNode(_) =>
    case Element(t, c, e, cs) =>
      if ProcessedClass !in c { ResetAllRemovesWrappers(cs); }
  }

  lemma {:induction false} ResetAllRemovesWrappers(cs: seq<Node>)
    ensures NoProcessedAll(ResetAll(cs))
    decreases cs
  {
    if |cs| > 0 {
      ResetRemovesWrappers(cs[0]);
      ResetAllRemovesWrappers(cs[1..]);
      assert ResetAll(cs)[1..] == ResetAll(cs[1..]);
    }
  }

  /** A tree without wrappers is left alone by a reset; in particular resetting twice is
      resetting once. */
  lemma {:induction false} ResetWithoutWrappers(n: Node)
    requires NoProcessed(n)
    ensures Reset(n) == n
    decreases n
  {
    match n
    case TextNode(_) =>
    case Element(t, c, e, cs) => ResetAllWithoutWrappers(cs);
  }

  lemma {:induction false} ResetAllWithoutWrappers(cs: seq<Node>)
    requires NoProcessedAll(cs)
    ensures ResetAll(cs) == cs
    decreases cs
  {
    if |cs| > 0 {
      ResetWithoutWrappers(cs[0]);
      ResetAllWithoutWrappers(cs[1..]);
      assert cs == [cs[0]] + cs[1..];
    }
  }

  lemma ResetIdempotent(n: Node)
    ensures Reset(Reset(n)) == Reset(n)
  {
    ResetRemovesWrappers(n);
    ResetWithoutWrappers(Reset(n));
  }

  /** Reset undoes the transform: on a page without wrappers, transforming and then resetting
      gives back the very same tree, each wrapper replaced by the one text node it came from. */
  lemma {:induction false} ResetUndoesProcess(n: Node, ctx: Ctx)
    requires NoProcessed(n)
    ensures Reset(Process(n, ctx)) == n
    decreases n
  {
    match n
    case TextNode(v) =>
    case Element(t, c, e, cs) => ResetAllUndoesProcess(cs, ChildCtx(ctx, t, c, e));
  }

  lemma {:induction false} ResetAllUndoesProcess(cs: seq<Node>, ctx: Ctx)
    requires NoProcessedAll(cs)
    ensures ResetAll(ProcessAll(cs, ctx)) == cs
    decreases cs
  {
    if |cs| > 0 {
      var head := Process(cs[0], ctx);
      var tail := ProcessAll(cs[1..], ctx);
      assert ProcessAll(cs, ctx) == [head] + tail;
      assert ([head] + tail)[1..] == tail;
      ResetUndoesProcess(cs[0], ctx);
      ResetAllUndoesProcess(cs[1..], ctx);
      assert ResetAll([head] + tail) == [Reset(head)] + ResetAll(tail);
      assert cs == [cs[0]] + cs[1..];
    }
  }

  // ---------------------------------------------------------------------------
  // the skip rule looks at the direct parent only

  /** The walk over an element with a single child. */
  lemma ProcessOneChild(t: string, c: set<string>, e: Editable, child: Node, ctx: Ctx)
    ensures Process(Element(t, c, e, [child]), ctx)
         == Element(t, c, e, [Process(child, ChildCtx(ctx, t, c, e))])
  {
    var r := ProcessAll([child], ChildCtx(ctx, t, c, e));
    assert r == [r[0]];
  }

  lemma PreTextKept(v: string)
    ensures Process(Element("PRE", {}, Inherit, [TextNode(v)]), PageCtx)
         == Element("PRE", {}, Inherit, [TextNode(v)])
  {
    var pre := ChildCtx(PageCtx, "PRE", {}, Inherit);
    assert pre.skipped;
    ProcessOneChild("PRE", {}, Inherit, TextNode(v), PageCtx);
  }

  lemma PreSpanTextWrapped(v: string)
    requires !IsBlank(v)
    ensures Process(Element("PRE", {}, Inherit, [Element("SPAN", {}, Inherit, [TextNode(v)])]), PageCtx)
         == Element("PRE", {}, Inherit, [Element("SPAN", {}, Inherit, [Wrap(v)])])
  {
    var pre := ChildCtx(PageCtx, "PRE", {}, Inherit);
    var span := ChildCtx(pre, "SPAN", {}, Inherit);
    assert "SPAN" !in SkipTags;
    assert !span.skipped && !span.processed;
    assert Process(TextNode(v), span) == Wrap(v);
    ProcessOneChild("SPAN", {}, Inherit, TextNode(v), pre);
    ProcessOneChild("PRE", {}, Inherit, Element("SPAN", {}, Inherit, [TextNode(v)]), PageCtx);
  }

  /** Text directly inside `<pre>` is left alone, but text in a `<span>` inside `<pre>` is
      wrapped: `shouldSkipElement` is asked about the parent only. */
  lemma SkipLooksAtParentOnly(v: string)
    requires !IsBlank(v)
    ensures Process(Element("PRE", {}, Inherit, [TextNode(v)]), PageCtx)
         == Element("PRE", {}, Inherit, [TextNode(v)])
    ensures Process(Element("PRE", {}, Inherit, [Element("SPAN", {}, Inherit, [TextNode(v)])]), PageCtx)
         == Element("PRE", {}, Inherit, [Element("SPAN", {}, Inherit, [Wrap(v)])])
  {
    PreTextKept(v);
    PreSpanTextWrapped(v);
  }

  lemma EditableTextKept(v: string)
    ensures Process(Element("DIV", {}, On, [Element("P", {}, Inherit, [TextNode(v)])]), PageCtx)
         == Element("DIV", {}, On, [Element("P", {}, Inherit, [TextNode(v)])])
  {
    var div := ChildCtx(PageCtx, "DIV", {}, On);
    var p := ChildCtx(div, "P", {}, Inherit);
    assert p.skipped;
    ProcessOneChild("P", {}, Inherit, TextNode(v), div);
    ProcessOneChild("DIV", {}, On, Element("P", {}, Inherit, [TextNode(v)]), PageCtx);
  }

  lemma EditingOffTextWrapped(v: string)
    requires !IsBlank(v)
    ensures Process(Element("DIV", {}, On, [Element("P", {}, Off, [TextNode(v)])]), PageCtx)
         == Element("DIV", {}, On, [Element("P", {}, Off, [Wrap(v)])])
  {
    var div := ChildCtx(PageCtx, "DIV", {}, On);
    var q := ChildCtx(div, "P", {}, Off);
    assert "P" !in SkipTags;
    assert !q.skipped && !q.processed;
    assert Process(TextNode(v), q) == Wrap(v);
    ProcessOneChild("P", {}, Off, TextNode(v), div);
    ProcessOneChild("DIV", {}, On, Element("P", {}, Off, [TextNode(v)]), PageCtx);
  }

  /** Editability is inherited: text anywhere below a `contenteditable` element is left alone,
      unless an element in between switches editing off. */
  lemma EditableInherited(v: string)
    requires !IsBlank(v)
    ensures Process(Element("DIV", {}, On, [Element("P", {}, Inherit, [TextNode(v)])]), PageCtx)
         == Element("DIV", {}, On, [Element("P", {}, Inherit, [TextNode(v)])])
    ensures Process(Element("DIV", {}, On, [Element("P", {}, Off, [TextNode(v)])]), PageCtx)
         == Element("DIV", {}, On, [Element("P", {}, Off, [Wrap(v)])])
  {
    EditableTextKept(v);
    EditingOffTextWrapped(v);
  }
}

=== FILE: extension.dfy ===
/**
 One click on the toolbar button (or the `toggle-extension` command), from the background's
 decision through the content script's answer to the badge it leaves: the two halves of
 `src/background/index.js` and `src/content/index.js` put together.
 */
module Extension {
  import opened Wrappers
  import opened Document
  import opened ContentScript
  import opened Background

  /** The active tab's document: no content script in it yet, or one running with its page. */
  datatype TabPage = NotInjected(body: Node) | Injected(page: Page)

  /** The badge set by the click (`None`: left as it was) and the tab's document afterwards. */
  datatype Outcome = Outcome(badge: Option<bool>, tabPage: TabPage)

  /** `toggleForActiveTab` with the page's side of the message. A page without a content
      script makes `sendMessage` fail; the script is then injected when the page allows it
      (`injectable`), and the badge goes to ON either way. */
  function Click(tab: Option<Tab>, allowlist: seq<string>, tabPage: TabPage, injectable: bool, env: Env): (r: Outcome)
    ensures ToggleForActiveTab(tab, allowlist).DoNothing? ==> r == Outcome(None, tabPage)
    ensures ToggleForActiveTab(tab, allowlist).BadgeOff? ==> r == Outcome(Some(false), tabPage)
    ensures r.tabPage != tabPage ==> ToggleForActiveTab(tab, allowlist).SendToggle?
    ensures tabPage.Injected? && ToggleForActiveTab(tab, allowlist).SendToggle? ==>
      r.tabPage.Injected? && r.badge == Some(r.tabPage.page.enabled)
    ensures r.badge == Some(true) && r.tabPage.Injected? ==> r.tabPage.page.enabled
    ensures tabPage.Injected? && ToggleForActiveTab(tab, allowlist).SendToggle? ==>
      var before := tabPage.page;
      var after := r.tabPage.page;
      && (after.enabled <==> !before.enabled && !IsBlockedHost(env))
      && TextContent(after.body) == TextContent(before.body)
      && (after.enabled ==> WalkAndProcess(after.body) == after.body)
      && (!after.enabled ==> NoProcessed(after.body))
      && (WrappersBolded(before.body) ==> WrappersBolded(after.body))
    ensures tabPage.NotInjected? && ToggleForActiveTab(tab, allowlist).SendToggle? ==>
      && r.badge == Some(true)
      && (!injectable ==> r.tabPage == tabPage)
      && (injectable ==>
            && r.tabPage.Injected? && r.tabPage.page.enabled
            && TextContent(r.tabPage.page.body) == TextContent(tabPage.body)
            && (!IsBlockedHost(env) ==> WalkAndProcess(r.tabPage.page.body) == r.tabPage.page.body)
            && (WrappersBolded(tabPage.body) ==> WrappersBolded(r.tabPage.page.body))
            && (!IsBlockedHost(env) && NoProcessed(tabPage.body) ==>
                  && Reset(r.tabPage.page.body) == tabPage.body
                  && WrappedTexts(r.tabPage.page.body) == Collect(tabPage.body, PageCtx)
                  && WrappersBolded(r.tabPage.page.body)))
  {
    match ToggleForActiveTab(tab, allowlist)
    case DoNothing => Outcome(None, tabPage)
    case BadgeOff(_) => Outcome(Some(false), tabPage)
    case SendToggle(_) =>
      match tabPage
      case NotInjected(body) =>
        var after := if injectable then Injected(Boot(body, env)) else tabPage;
        Outcome(BadgeAfterReply(NoReceiver), after)
      case Injected(page) =>
        var h := OnMessage(page, Message(Some("TOGGLE")), env);
        Outcome(BadgeAfterReply(Response(h.reply)), Injected(h.page))
  }

  /** A click never transforms the page of a host that is not allowlisted. */
  lemma {:induction false} NotAllowlistedUntouched(tab: Tab, allowlist: seq<string>, tabPage: TabPage,
                                                   injectable: bool, env: Env)
    requires tab.host != "" && !IsAllowlistedHost(tab.host, allowlist)
    ensures Click(Some(tab), allowlist, tabPage, injectable, env).tabPage == tabPage
  {
    if HasId(tab) {
      NotAllowlistedNeverToggled(tab.id.value, tab.host, allowlist);
    }
  }

  /** On a host that is allowlisted and also blocked, the first click injects the script and
      the badge says ON, although the script leaves the page as it was; with the script
      already running, the badge says OFF. */
  lemma BlockedButAllowlisted(id: int, host: string, allowlist: seq<string>, body: Node, page: Page, env: Env)
    requires id != 0 && host != "" && IsAllowlistedHost(host, allowlist) && IsBlockedHost(env)
    ensures var r := Click(Some(Tab(Some(id), host)), allowlist, NotInjected(body), true, env);
            r.badge == Some(true) && r.tabPage == Injected(Page(true, body))
    ensures Click(Some(Tab(Some(id), host)), allowlist, Injected(page), true, env).badge == Some(false)
  {
  }
}

=== FILE: hosts.dfy ===
/**
 The host matcher shared by the content script's blocklist check (`isBlockedHost`,
 `src/content/index.js`) and the background's allowlist check (`isAllowlistedHost`,
 `src/background/index.js`): a host matches an entry when it is the entry or a subdomain of it.
 */
module Hosts {
  import opened Text

  /** `host` is `entry` with one or more labels in front: some dot is followed by exactly `entry`. */
  predicate IsSubdomainOf(host: string, entry: string)
  {
    exists k | 0 <= k < |host| :: host[k] == '.' && host[k + 1..] == entry
  }

  /** `host === entry || host.endsWith("." + entry)`. */
  predicate MatchesEntry(host: string, entry: string)
    ensures MatchesEntry(host, entry) <==> host == entry || IsSubdomainOf(host, entry)
  {
    DotSuffixMeaning(host, entry);
    host == entry || EndsWith(host, "." + entry)
  }

  /** Ending with a dot and the entry is having some dot followed by exactly the entry. */
  lemma DotSuffixMeaning(host: string, entry: string)
    ensures EndsWith(host, "." + entry) <==> IsSubdomainOf(host, entry)
  {
    if EndsWith(host, "." + entry) {
      var k := |host| - |entry| - 1;
      assert host[k..] == "." + entry;
      assert host[k] == '.' && host[k + 1..] == entry;
    }
    if IsSubdomainOf(host, entry) {
      var k :| 0 <= k < |host| && host[k] == '.' && host[k + 1..] == entry;
      assert host[k..] == "." + entry;
      assert |host| - |"." + entry| == k;
    }
  }

  /** `entries.some((e) => MatchesEntry(host, e))`. */
  function MatchesAny(host: string, entries: seq<string>): (r: bool)
    ensures r <==> exists i | 0 <= i < |entries| :: host == entries[i] || IsSubdomainOf(host, entries[i])
  {
    if |entries| == 0 then false
    else
      assert forall i | 1 <= i < |entries| :: entries[i] == entries[1..][i - 1];
      MatchesEntry(host, entries[0]) || MatchesAny(host, entries[1..])
  }

  /** A look-alike that only shares a suffix without the dot does not match; a real
      subdomain does. */
  lemma MatchExamples()
    ensures !MatchesAny("xchase.com", ["chase.com"])
    ensures MatchesAny("chase.com", ["chase.com"])
    ensures MatchesAny("online.chase.com", ["chase.com"])
  {
    assert "online.chase.com"[6..] == ".chase.com";
    assert "xchase.com"[0..] != ".chase.com";
  }
}

=== FILE: list_utils.dfy ===
/**
 The list utilities of `src/shared/list-utils.js`: `normalize`, which turns the lines of an
 options-page textarea into a stored domain list, and `reconcileLists`, which merges an edited
 allowlist/blocklist pair against the pair last saved.

 A JavaScript `Set` of strings is modelled by a Dafny `set<string>`; an absent (`null` or
 `undefined`) list is passed as the empty sequence, which is what the source's `|| []` makes of it.
 */
module ListUtils {
  import opened Wrappers
  import opened Text

  // ---------------------------------------------------------------------------
  // normalize

  /** One textarea line as a stored entry: `line.trim().toLowerCase()`. */
  function Clean(line: string): (r: string)
    ensures IsTrimmed(r) && IsLower(r)
    ensures r == "" <==> IsBlank(line)
    ensures |r| == |Trim(line)|
    ensures forall k | 0 <= k < |r| :: r[k] == LowerChar(Trim(line)[k])
  {
    LowerKeepsTrimmed(Trim(line));
    Lower(Trim(line))
  }

  /** Cleaning an entry that is already clean changes nothing. */
  lemma CleanIdempotent(line: string)
    ensures Clean(Clean(line)) == Clean(line)
  {
    var c := Clean(line);
    TrimTrimmed(c);
    LowerOfLower(c);
  }

  /** An entry of a stored list: non-empty, trimmed and lower-case. */
  predicate IsEntry(x: string)
  {
    x != "" && IsTrimmed(x) && IsLower(x)
  }

  /** The non-empty values `f` takes on `lines`. */
  function NonEmptyImages(lines: seq<string>, f: string -> string): set<string>
  {
    set l | l in lines && f(l) != "" :: f(l)
  }

  lemma NonEmptyImagesCons(lines: seq<string>, f: string -> string)
    requires |lines| > 0
    ensures NonEmptyImages(lines, f)
         == (if f(lines[0]) == "" then {} else {f(lines[0])}) + NonEmptyImages(lines[1..], f)
  {
    var c := f(lines[0]);
    var head: set<string> := if c == "" then {} else {c};
    assert lines == [lines[0]] + lines[1..];
    forall y ensures y in NonEmptyImages(lines, f) <==> y in head + NonEmptyImages(lines[1..], f) {
      if y in NonEmptyImages(lines, f) {
        var l :| l in lines && f(l) != "" && f(l) == y;
        if l != lines[0] {
          assert l in lines[1..];
        }
      }
      if y in NonEmptyImages(lines[1..], f) {
        var l :| l in lines[1..] && f(l) != "" && f(l) == y;
        assert l in lines;
      }
    }
  }

  /** `lines.map(f).filter(Boolean)`: the non-empty values of `f` on `lines`, in input order. */
  function NonEmptyMap(lines: seq<string>, f: string -> string): (r: seq<string>)
    ensures Elems(r) == NonEmptyImages(lines, f)
  {
    if |lines| == 0 then []
    else
      var c := f(lines[0]);
      var rest := NonEmptyMap(lines[1..], f);
      NonEmptyImagesCons(lines, f);
      assert Elems((if c == "" then [] else [c]) + rest) == (if c == "" then {} else {c}) + Elems(rest);
      (if c == "" then [] else [c]) + rest
  }

  /** A list as `normalize` leaves it: entries only, ascending, no repeats. */
  predicate IsNormal(xs: seq<string>)
  {
    StrictlySorted(xs) && forall x | x in xs :: IsEntry(x)
  }

  /** `normalize(lines)` (lines 2-5): trim and lower-case every line, drop the empty ones,
      drop repeats, sort. */
  function Normalize(lines: seq<string>): (r: seq<string>)
    ensures IsNormal(r)
    ensures Elems(r) == NonEmptyImages(lines, Clean)
  {
    var r := SortUnique(NonEmptyMap(lines, Clean));
    assert forall x | x in r :: IsEntry(x) by {
      forall x | x in r ensures IsEntry(x) {
        assert x in NonEmptyImages(lines, Clean);
        var l :| l in lines && Clean(l) != "" && Clean(l) == x;
      }
    }
    r
  }

  /** Normalising a normalised list changes nothing, so normalising twice is normalising once. */
  lemma {:induction false} NormalizeIdempotent(lines: seq<string>)
    ensures Normalize(Normalize(lines)) == Normalize(lines)
  {
    var r := Normalize(lines);
    NormalizeNormal(r);
  }

  /** `normalize` returns the one ascending, repeat-free list of the non-empty cleaned lines:
      any such list is its result. */
  lemma NormalizeIsSortedListing(lines: seq<string>, want: seq<string>)
    requires StrictlySorted(want)
    requires Elems(want) == NonEmptyImages(lines, Clean)
    ensures Normalize(lines) == want
  {
    SortedUnique(Normalize(lines), want);
  }

  lemma {:induction false} NormalizeNormal(xs: seq<string>)
    requires IsNormal(xs)
    ensures Normalize(xs) == xs
  {
    forall x | x in xs ensures Clean(x) == x {
      TrimTrimmed(x);
      LowerOfLower(x);
    }
    assert Elems(Normalize(xs)) == Elems(xs);
    SortedUnique(Normalize(xs), xs);
  }

  // ---------------------------------------------------------------------------
  // reconcileLists

  /** `xs.filter((item) => !s.has(item))`, order kept. */
  function Without(xs: seq<string>, s: set<string>): (r: seq<string>)
    ensures forall x :: x in r <==> x in xs && x !in s
  {
    if |xs| == 0 then []
    else (if xs[0] in s then [] else [xs[0]]) + Without(xs[1..], s)
  }

  /** Removing a set that covers the whole list leaves nothing. */
  lemma {:induction false} WithoutCovered(xs: seq<string>, s: set<string>)
    requires Elems(xs) <= s
    ensures Without(xs, s) == []
  {
    if |xs| > 0 {
      assert xs[0] in Elems(xs);
      assert Elems(xs[1..]) <= Elems(xs);
      WithoutCovered(xs[1..], s);
    }
  }

  /** The elements of `xs` that lie in `s`, order kept. */
  function Within(xs: seq<string>, s: set<string>): (r: seq<string>)
    ensures forall x :: x in r <==> x in xs && x in s
  {
    if |xs| == 0 then []
    else (if xs[0] in s then [xs[0]] else []) + Within(xs[1..], s)
  }

  /** What `confirmMoveToAllow ? confirmMoveToAllow(item) : true` evaluates to. */
  predicate Confirmed(confirm: Option<string -> bool>, x: string)
  {
    match confirm
    case None => true
    case Some(f) => f(x)
  }

  /** `x` is being moved from the blocklist to the allowlist: newly in the allowlist and in the
      blocklist last saved. */
  predicate Moving(x: string, allowlist: seq<string>, lastAllowlist: seq<string>, lastBlocklist: seq<string>)
  {
    x in allowlist && x !in lastAllowlist && x in lastBlocklist
  }

  /** The moving items of `allowlist`, in its order and with its repeats. */
  function MovingItems(allowlist: seq<string>, lastAllowlist: seq<string>, lastBlocklist: seq<string>): (r: seq<string>)
    ensures forall x :: x in r <==> Moving(x, allowlist, lastAllowlist, lastBlocklist)
    ensures |r| <= |allowlist|
  {
    if |allowlist| == 0 then []
    else
      var x := allowlist[0];
      assert allowlist == [x] + allowlist[1..];
      (if x !in lastAllowlist && x in lastBlocklist then [x] else [])
      + MovingItems(allowlist[1..], lastAllowlist, lastBlocklist)
  }

  /** Where an item ends up after reconciliation. */
  datatype Placement = Allowed | Blocked | Absent

  /** The placement rule, stated per item and without the passes: a moving item goes where the
      confirmation sends it; otherwise the blocklist wins; otherwise the allowlist keeps it. */
  function Verdict(x: string, allowlist: seq<string>, blocklist: seq<string>,
                   lastAllowlist: seq<string>, lastBlocklist: seq<string>,
                   confirm: Option<string -> bool>): (v: Placement)
    ensures v == Absent <==> x !in allowlist && x !in blocklist
    ensures v == Allowed ==> x in allowlist
    ensures v == Blocked && x !in blocklist ==> x in allowlist && x in lastBlocklist && !Confirmed(confirm, x)
  {
    if Moving(x, allowlist, lastAllowlist, lastBlocklist) then
      (if Confirmed(confirm, x) then Allowed else Blocked)
    else if x in blocklist then Blocked
    else if x in allowlist then Allowed
    else Absent
  }

  /** The working state of the passes: `allowSet`, `blockSet`, and the items the confirmation
      was asked about so far. */
  datatype Pass = Pass(allow: set<string>, block: set<string>, asked: seq<string>)

  /** The body of `addedToAllow.forEach` (lines 28-39) for one item. */
  function MoveStep(item: string, lastBlock: set<string>, confirm: Option<string -> bool>, p: Pass): (q: Pass)
    ensures forall x | x != item :: (x in q.allow <==> x in p.allow) && (x in q.block <==> x in p.block)
    ensures item in p.allow && item in lastBlock ==>
      && (item in q.allow <==> Confirmed(confirm, item))
      && (item in q.block <==> !Confirmed(confirm, item))
    ensures !(item in p.allow && item in lastBlock) ==> q == p
    ensures q.asked == p.asked + (if item in p.allow && item in lastBlock && confirm.Some? then [item] else [])
  {
    if item !in p.allow then p
    else if item !in lastBlock then p
    else match confirm
      case None => p.(block := p.block - {item})
      case Some(f) =>
        var asked := p.asked + [item];
        if f(item) then Pass(p.allow, p.block - {item}, asked)
        else Pass(p.allow - {item}, p.block + {item}, asked)
  }

  /** `addedToAllow.forEach(...)`: the steps, left to right. */
  function MovePass(items: seq<string>, lastBlock: set<string>, confirm: Option<string -> bool>, p: Pass): (q: Pass)
    ensures q.allow <= p.allow
    ensures forall x | x !in items :: (x in q.allow <==> x in p.allow) && (x in q.block <==> x in p.block)
  {
    if |items| == 0 then p
    else
      assert forall x | x !in items :: x != items[0] && x !in items[1..];
      MovePass(items[1..], lastBlock, confirm, MoveStep(items[0], lastBlock, confirm, p))
  }

  /** Each item of the pass decides its own fate once, at its first occurrence; later
      occurrences and other items leave it alone. */
  lemma {:induction false} MovePassEffect(items: seq<string>, lastBlock: set<string>, confirm: Option<string -> bool>,
                                          p: Pass, x: string)
    ensures var q := MovePass(items, lastBlock, confirm, p);
      if x in items && x in lastBlock && x in p.allow then
        (x in q.allow <==> Confirmed(confirm, x)) && (x in q.block <==> !Confirmed(confirm, x))
      else
        (x in q.allow <==> x in p.allow) && (x in q.block <==> x in p.block)
  {
    if |items| > 0 {
      var p' := MoveStep(items[0], lastBlock, confirm, p);
      MovePassEffect(items[1..], lastBlock, confirm, p', x);
      assert items == [items[0]] + items[1..];
    }
  }

  /** The confirmation is asked only about items of the pass that are still allowed and were
      blocked last time, and, when there is a confirmation, about each of them. */
  lemma {:induction false} MovePassAsks(items: seq<string>, lastBlock: set<string>, confirm: Option<string -> bool>, p: Pass)
    ensures var q := MovePass(items, lastBlock, confirm, p);
      && (forall y | y in q.asked :: y in p.asked || (y in items && y in lastBlock && y in p.allow && confirm.Some?))
      && (confirm.Some? ==> forall y | y in items && y in lastBlock && y in p.allow :: y in q.asked)
      && |p.asked| <= |q.asked| && q.asked[..|p.asked|] == p.asked
      && (confirm.None? ==> q.asked == p.asked)
  {
    if |items| > 0 {
      var p' := MoveStep(items[0], lastBlock, confirm, p);
      MovePassAsks(items[1..], lastBlock, confirm, p');
      var q := MovePass(items, lastBlock, confirm, p);
      assert items == [items[0]] + items[1..];
      assert q.asked[..|p.asked|] == q.asked[..|p'.asked|][..|p.asked|];
      forall y | y in items && y in lastBlock && y in p.allow && confirm.Some? ensures y in q.asked {
        if y == items[0] {
          assert y == p'.asked[|p.asked|];
          assert y == q.asked[..|p'.asked|][|p.asked|];
        } else {
          assert y in items[1..];
        }
      }
    }
  }

  /** The items of `items` in `lastBlock` and in `allow`, order kept. */
  function AskedOf(items: seq<string>, lastBlock: set<string>, allow: set<string>): seq<string>
  {
    if |items| == 0 then []
    else (if items[0] in lastBlock && items[0] in allow then [items[0]] else [])
         + AskedOf(items[1..], lastBlock, allow)
  }

  lemma {:induction false} AskedOfAgree(items: seq<string>, lastBlock: set<string>, s1: set<string>, s2: set<string>)
    requires forall y | y in items :: (y in s1 <==> y in s2)
    ensures AskedOf(items, lastBlock, s1) == AskedOf(items, lastBlock, s2)
  {
    if |items| > 0 {
      AskedOfAgree(items[1..], lastBlock, s1, s2);
    }
  }

  /** Without repeats in the pass, the confirmation is asked about the qualifying items in
      order, once each. */
  lemma {:induction false} MovePassAsksInOrder(items: seq<string>, lastBlock: set<string>, f: string -> bool, p: Pass)
    requires DuplicateFree(items)
    ensures MovePass(items, lastBlock, Some(f), p).asked == p.asked + AskedOf(items, lastBlock, p.allow)
  {
    if |items| > 0 {
      var y := items[0];
      var p' := MoveStep(y, lastBlock, Some(f), p);
      assert DuplicateFree(items[1..]);
      assert y !in items[1..];
      AskedOfAgree(items[1..], lastBlock, p'.allow, p.allow);
      MovePassAsksInOrder(items[1..], lastBlock, f, p');
    }
  }

  lemma {:induction false} AskedOfMoving(allowlist: seq<string>, lastAllowlist: seq<string>, lastBlocklist: seq<string>, allow: set<string>)
    requires forall y | y in allowlist && y in lastBlocklist :: y in allow
    ensures AskedOf(Without(allowlist, Elems(lastAllowlist)), Elems(lastBlocklist), allow)
         == MovingItems(allowlist, lastAllowlist, lastBlocklist)
  {
    if |allowlist| > 0 {
      AskedOfMoving(allowlist[1..], lastAllowlist, lastBlocklist, allow);
      var x := allowlist[0];
      var w := Without(allowlist, Elems(lastAllowlist));
      if x !in Elems(lastAllowlist) {
        assert w[0] == x && w[1..] == Without(allowlist[1..], Elems(lastAllowlist));
        assert x in lastBlocklist ==> x in allow;
      } else {
        assert w == Without(allowlist[1..], Elems(lastAllowlist));
      }
    }
  }

  /** The state the block-to-allow pass starts from: the allowlist after the evictions. */
  function MoveStart(allowlist: seq<string>, blocklist: seq<string>, lastBlocklist: seq<string>): (p: Pass)
    ensures forall x :: x in p.allow <==> x in allowlist && !(x in blocklist && x !in lastBlocklist)
    ensures forall x :: x in p.block <==> x in blocklist
    ensures p.asked == []
  {
    // addedToBlock is Without(blocklist, Elems(lastBlocklist))
    Pass(Elems(allowlist) - Elems(Without(blocklist, Elems(lastBlocklist))), Elems(blocklist), [])
  }

  /** `reconcileLists` up to the final sort (lines 14-45): the three passes over sets.
      `allow` and `block` are `allowSet` and `blockSet` at line 47. */
  function Passes(allowlist: seq<string>, blocklist: seq<string>,
                  lastAllowlist: seq<string>, lastBlocklist: seq<string>,
                  confirm: Option<string -> bool>): (p: Pass)
    ensures forall x :: x in p.allow <==> Verdict(x, allowlist, blocklist, lastAllowlist, lastBlocklist, confirm) == Allowed
    ensures forall x :: x in p.block <==> Verdict(x, allowlist, blocklist, lastAllowlist, lastBlocklist, confirm) == Blocked
  {
    var lastAllow := Elems(lastAllowlist);
    var lastBlock := Elems(lastBlocklist);
    var addedToAllow := Without(allowlist, lastAllow);
    // blocklist additions evict from the allowlist
    var start := MoveStart(allowlist, blocklist, lastBlocklist);
    // block-to-allow moves, gated by the confirmation
    var moved := MovePass(addedToAllow, lastBlock, confirm, start);
    // block wins ties
    var p := Pass(moved.allow - moved.block, moved.block, moved.asked);
    assert forall x :: x in p.allow <==> Verdict(x, allowlist, blocklist, lastAllowlist, lastBlocklist, confirm) == Allowed
      by { forall x { MovePassEffect(addedToAllow, lastBlock, confirm, start, x); } }
    assert forall x :: x in p.block <==> Verdict(x, allowlist, blocklist, lastAllowlist, lastBlocklist, confirm) == Blocked
      by { forall x { MovePassEffect(addedToAllow, lastBlock, confirm, start, x); } }
    p
  }

  /** The result of `reconcileLists`, with the items the confirmation was asked about. */
  datatype Reconciled = Reconciled(allowlist: seq<string>, blocklist: seq<string>, asked: seq<string>)

  /** `reconcileLists({allowlist, blocklist, lastAllowlist, lastBlocklist, confirmMoveToAllow})`
      (lines 7-51). `Array.from(set).sort()` is the sorted, repeat-free listing of the set; every
      member of the final sets occurs in `allowlist + blocklist`, so it is listed from there. */
  function ReconcileLists(allowlist: seq<string>, blocklist: seq<string>,
                          lastAllowlist: seq<string>, lastBlocklist: seq<string>,
                          confirm: Option<string -> bool>): (r: Reconciled)
    ensures StrictlySorted(r.allowlist) && StrictlySorted(r.blocklist)
    ensures forall x :: x in r.allowlist <==> Verdict(x, allowlist, blocklist, lastAllowlist, lastBlocklist, confirm) == Allowed
    ensures forall x :: x in r.blocklist <==> Verdict(x, allowlist, blocklist, lastAllowlist, lastBlocklist, confirm) == Blocked
    ensures Elems(r.allowlist) !! Elems(r.blocklist)
    ensures Elems(r.allowlist) + Elems(r.blocklist) == Elems(allowlist) + Elems(blocklist)
  {
    var p := Passes(allowlist, blocklist, lastAllowlist, lastBlocklist, confirm);
    var everything := allowlist + blocklist;
    var r := Reconciled(SortUnique(Within(everything, p.allow)), SortUnique(Within(everything, p.block)), p.asked);
    assert forall x :: x in r.allowlist <==> x in Elems(r.allowlist);
    assert forall x :: x in r.blocklist <==> x in Elems(r.blocklist);
    r
  }

  // ---------------------------------------------------------------------------
  // properties of reconcileLists

  lemma {:induction false} WithoutDuplicateFree(xs: seq<string>, s: set<string>)
    requires DuplicateFree(xs)
    ensures DuplicateFree(Without(xs, s))
  {
    if |xs| > 0 {
      assert DuplicateFree(xs[1..]);
      WithoutDuplicateFree(xs[1..], s);
      assert xs[0] !in xs[1..];
    }
  }

  lemma AskedByMovePass(allowlist: seq<string>, blocklist: seq<string>,
                        lastAllowlist: seq<string>, lastBlocklist: seq<string>,
                        confirm: Option<string -> bool>)
    ensures ReconcileLists(allowlist, blocklist, lastAllowlist, lastBlocklist, confirm).asked
         == MovePass(Without(allowlist, Elems(lastAllowlist)), Elems(lastBlocklist), confirm,
                     MoveStart(allowlist, blocklist, lastBlocklist)).asked
  {
  }

  /** The confirmation is asked only about moving items; without a confirmation nobody is
      asked; with one, every moving item is asked. */
  lemma {:induction false} ReconcileAsks(allowlist: seq<string>, blocklist: seq<string>,
                                         lastAllowlist: seq<string>, lastBlocklist: seq<string>,
                                         confirm: Option<string -> bool>)
    ensures var r := ReconcileLists(allowlist, blocklist, lastAllowlist, lastBlocklist, confirm);
      && (forall y | y in r.asked :: Moving(y, allowlist, lastAllowlist, lastBlocklist))
      && (confirm.None? ==> r.asked == [])
      && (confirm.Some? ==> forall y | Moving(y, allowlist, lastAllowlist, lastBlocklist) :: y in r.asked)
  {
    var lastBlock := Elems(lastBlocklist);
    var items := Without(allowlist, Elems(lastAllowlist));
    var start := MoveStart(allowlist, blocklist, lastBlocklist);
    MovePassAsks(items, lastBlock, confirm, start);
    AskedByMovePass(allowlist, blocklist, lastAllowlist, lastBlocklist, confirm);
  }

  /** The block-to-allow pass over a repeat-free allowlist asks about its moving items, in
      order, once each. */
  lemma MovePassAsksMoving(allowlist: seq<string>, blocklist: seq<string>,
                           lastAllowlist: seq<string>, lastBlocklist: seq<string>,
                           f: string -> bool)
    requires DuplicateFree(allowlist)
    ensures MovePass(Without(allowlist, Elems(lastAllowlist)), Elems(lastBlocklist), Some(f),
                     MoveStart(allowlist, blocklist, lastBlocklist)).asked
         == MovingItems(allowlist, lastAllowlist, lastBlocklist)
  {
    var start := MoveStart(allowlist, blocklist, lastBlocklist);
    WithoutDuplicateFree(allowlist, Elems(lastAllowlist));
    MovePassAsksInOrder(Without(allowlist, Elems(lastAllowlist)), Elems(lastBlocklist), f, start);
    AskedOfMoving(allowlist, lastAllowlist, lastBlocklist, start.allow);
  }

  /** When the allowlist has no repeats, the confirmation is asked about exactly the moving
      items, in allowlist order, once each. */
  lemma ReconcileAsksInOrder(allowlist: seq<string>, blocklist: seq<string>,
                             lastAllowlist: seq<string>, lastBlocklist: seq<string>,
                             f: string -> bool)
    requires DuplicateFree(allowlist)
    ensures ReconcileLists(allowlist, blocklist, lastAllowlist, lastBlocklist, Some(f)).asked
         == MovingItems(allowlist, lastAllowlist, lastBlocklist)
  {
    AskedByMovePass(allowlist, blocklist, lastAllowlist, lastBlocklist, Some(f));
    MovePassAsksMoving(allowlist, blocklist, lastAllowlist, lastBlocklist, f);
  }

  /** An unchanged allowlist means nothing is moving, so the confirmation is never asked. */
  lemma UnchangedAllowlistAsksNothing(allowlist: seq<string>, blocklist: seq<string>, lastBlocklist: seq<string>,
                                      confirm: Option<string -> bool>)
    ensures ReconcileLists(allowlist, blocklist, allowlist, lastBlocklist, confirm).asked == []
  {
    WithoutCovered(allowlist, Elems(allowlist));
    AskedByMovePass(allowlist, blocklist, allowlist, lastBlocklist, confirm);
  }

  /** With a repeated item and a confirmation that says yes, the confirmation is asked twice. */
  lemma RepeatedItemAskedTwice(f: string -> bool)
    requires f("a.com")
    ensures ReconcileLists(["a.com", "a.com"], [], [], ["a.com"], Some(f)).asked == ["a.com", "a.com"]
  {
    var lastBlock := Elems(["a.com"]);
    var items := Without(["a.com", "a.com"], Elems([]));
    assert items == ["a.com", "a.com"];
    var start := MoveStart(["a.com", "a.com"], [], ["a.com"]);
    assert start == Pass({"a.com"}, {}, []);
    var p1 := MoveStep("a.com", lastBlock, Some(f), start);
    assert p1 == Pass({"a.com"}, {}, ["a.com"]);
    var p2 := MoveStep("a.com", lastBlock, Some(f), p1);
    assert p2 == Pass({"a.com"}, {}, ["a.com", "a.com"]);
    assert items[1..] == ["a.com"];
    assert MovePass(items, lastBlock, Some(f), start) == MovePass(["a.com"], lastBlock, Some(f), p1);
    assert MovePass(["a.com"], lastBlock, Some(f), p1) == MovePass([], lastBlock, Some(f), p2);
    AskedByMovePass(["a.com", "a.com"], [], [], ["a.com"], Some(f));
  }

  /** An item newly added to the blocklist ends up in the blocklist only. */
  lemma BlockAdditionEvicts(allowlist: seq<string>, blocklist: seq<string>,
                            lastAllowlist: seq<string>, lastBlocklist: seq<string>,
                            confirm: Option<string -> bool>, x: string)
    requires x in blocklist && x !in lastBlocklist
    ensures var r := ReconcileLists(allowlist, blocklist, lastAllowlist, lastBlocklist, confirm);
      x !in r.allowlist && x in r.blocklist
  {
    var r := ReconcileLists(allowlist, blocklist, lastAllowlist, lastBlocklist, confirm);
    assert Verdict(x, allowlist, blocklist, lastAllowlist, lastBlocklist, confirm) == Blocked;
  }

  /** An allowlist entry that is not blocked and not moving stays allowed. */
  lemma UnrelatedAllowKept(allowlist: seq<string>, blocklist: seq<string>,
                           lastAllowlist: seq<string>, lastBlocklist: seq<string>,
                           confirm: Option<string -> bool>, x: string)
    requires x in allowlist && x !in blocklist
    requires !Moving(x, allowlist, lastAllowlist, lastBlocklist)
    ensures var r := ReconcileLists(allowlist, blocklist, lastAllowlist, lastBlocklist, confirm);
      x in r.allowlist && x !in r.blocklist
  {
    assert Verdict(x, allowlist, blocklist, lastAllowlist, lastBlocklist, confirm) == Allowed;
  }

  /** A move from blocklist to allowlist happens exactly when it is confirmed; refused, it is
      reverted. */
  lemma MoveFollowsConfirmation(allowlist: seq<string>, blocklist: seq<string>,
                                lastAllowlist: seq<string>, lastBlocklist: seq<string>,
                                confirm: Option<string -> bool>, x: string)
    requires Moving(x, allowlist, lastAllowlist, lastBlocklist)
    ensures var r := ReconcileLists(allowlist, blocklist, lastAllowlist, lastBlocklist, confirm);
      && (Confirmed(confirm, x) ==> x in r.allowlist && x !in r.blocklist)
      && (!Confirmed(confirm, x) ==> x !in r.allowlist && x in r.blocklist)
  {
    var v := Verdict(x, allowlist, blocklist, lastAllowlist, lastBlocklist, confirm);
    assert v == (if Confirmed(confirm, x) then Allowed else Blocked);
  }

  /** Without history, an item in both lists ends up in the blocklist only. */
  lemma NoHistoryBlockWins(allowlist: seq<string>, blocklist: seq<string>,
                           confirm: Option<string -> bool>, x: string)
    requires x in allowlist && x in blocklist
    ensures var r := ReconcileLists(allowlist, blocklist, [], [], confirm);
      x !in r.allowlist && x in r.blocklist
  {
    assert Verdict(x, allowlist, blocklist, [], [], confirm) == Blocked;
  }

  /** When nothing was edited and the lists are sorted and disjoint, reconciling returns them
      as they are and asks nothing. */
  lemma {:induction false} ReconcileUnchanged(allowlist: seq<string>, blocklist: seq<string>,
                                              confirm: Option<string -> bool>)
    requires StrictlySorted(allowlist) && StrictlySorted(blocklist)
    requires Elems(allowlist) !! Elems(blocklist)
    ensures ReconcileLists(allowlist, blocklist, allowlist, blocklist, confirm) == Reconciled(allowlist, blocklist, [])
  {
    var r := ReconcileLists(allowlist, blocklist, allowlist, blocklist, confirm);
    forall x ensures x in r.allowlist <==> x in allowlist {
      assert Verdict(x, allowlist, blocklist, allowlist, blocklist, confirm) == Allowed <==> x in allowlist;
    }
    forall x ensures x in r.blocklist <==> x in blocklist {
      assert Verdict(x, allowlist, blocklist, allowlist, blocklist, confirm) == Blocked <==> x in blocklist;
    }
    SortedUnique(r.allowlist, allowlist);
    SortedUnique(r.blocklist, blocklist);
    UnchangedAllowlistAsksNothing(allowlist, blocklist, blocklist, confirm);
  }

  /** Saving the reconciled lists again, with themselves as history, changes nothing. */
  lemma ReconcileIdempotent(allowlist: seq<string>, blocklist: seq<string>,
                            lastAllowlist: seq<string>, lastBlocklist: seq<string>,
                            confirm: Option<string -> bool>, confirm': Option<string -> bool>)
    ensures var r := ReconcileLists(allowlist, blocklist, lastAllowlist, lastBlocklist, confirm);
      ReconcileLists(r.allowlist, r.blocklist, r.allowlist, r.blocklist, confirm') == Reconciled(r.allowlist, r.blocklist, [])
  {
    var r := ReconcileLists(allowlist, blocklist, lastAllowlist, lastBlocklist, confirm);
    ReconcileUnchanged(r.allowlist, r.blocklist, confirm');
  }

  /** A sorted list with the elements the verdict gives is the list reconciliation returns. */
  lemma {:induction false} ResultLists(allowlist: seq<string>, blocklist: seq<string>,
                                       lastAllowlist: seq<string>, lastBlocklist: seq<string>,
                                       confirm: Option<string -> bool>, allowed: seq<string>, blocked: seq<string>)
    requires StrictlySorted(allowed) && StrictlySorted(blocked)
    requires forall x :: x in allowed <==> Verdict(x, allowlist, blocklist, lastAllowlist, lastBlocklist, confirm) == Allowed
    requires forall x :: x in blocked <==> Verdict(x, allowlist, blocklist, lastAllowlist, lastBlocklist, confirm) == Blocked
    ensures var r := ReconcileLists(allowlist, blocklist, lastAllowlist, lastBlocklist, confirm);
      r.allowlist == allowed && r.blocklist == blocked
  {
    var r := ReconcileLists(allowlist, blocklist, lastAllowlist, lastBlocklist, confirm);
    assert Elems(r.allowlist) == Elems(allowed);
    assert Elems(r.blocklist) == Elems(blocked);
    SortedUnique(r.allowlist, allowed);
    SortedUnique(r.blocklist, blocked);
  }

  /** Test "adding to blocklist removes from allowlist". */
  lemma ScenarioBlockAdditionEvicts(confirm: Option<string -> bool>)
    ensures var r := ReconcileLists(["a.com"], ["a.com"], ["a.com"], [], confirm);
      r.allowlist == [] && r.blocklist == ["a.com"]
  {
    ResultLists(["a.com"], ["a.com"], ["a.com"], [], confirm, [], ["a.com"]);
  }

  /** Tests "moving from blocklist to allowlist", confirmed and refused. */
  lemma ScenarioMove(f: string -> bool)
    ensures var r := ReconcileLists(["a.com"], [], [], ["a.com"], Some(f));
      if f("a.com") then r.allowlist == ["a.com"] && r.blocklist == []
      else r.allowlist == [] && r.blocklist == ["a.com"]
  {
    if f("a.com") {
      ResultLists(["a.com"], [], [], ["a.com"], Some(f), ["a.com"], []);
    } else {
      ResultLists(["a.com"], [], [], ["a.com"], Some(f), [], ["a.com"]);
    }
  }

  /** Test "conflict from external changes: blocklist wins". */
  lemma ScenarioBlockWins(confirm: Option<string -> bool>)
    ensures var r := ReconcileLists(["a.com", "b.com"], ["a.com"], [], [], confirm);
      r.allowlist == ["b.com"] && r.blocklist == ["a.com"]
  {
    ResultLists(["a.com", "b.com"], ["a.com"], [], [], confirm, ["b.com"], ["a.com"]);
  }

  /** Test "adding to blocklist keeps unrelated allowlist entries". */
  lemma ScenarioUnrelatedKept(confirm: Option<string -> bool>)
    ensures var r := ReconcileLists(["a.com", "b.com"], ["c.com"], ["a.com", "b.com"], [], confirm);
      r.allowlist == ["a.com", "b.com"] && r.blocklist == ["c.com"]
  {
    assert Below("a.com", "b.com");
    ResultLists(["a.com", "b.com"], ["c.com"], ["a.com", "b.com"], [], confirm, ["a.com", "b.com"], ["c.com"]);
  }
}

=== FILE: rate_limit.dfy ===
/**
 The rate limiter of `src/shared/rate-limit.js`. JavaScript numbers are modelled as integers;
 `None` stands for an argument that is absent or is not of type number.
 */
module RateLimit {
  import opened Wrappers

  /** `shouldRun(nowMs, lastMs, minIntervalMs)`: whether a new pass may start now. */
  function ShouldRun(now: Option<int>, last: Option<int>, minInterval: Option<int>): (r: bool)
    ensures now.None? ==> !r
    ensures now.Some? && last.None? ==> r
    ensures now.Some? && minInterval.None? ==> r
    ensures now.Some? && last.Some? && minInterval.Some? ==> (r <==> last.value + minInterval.value <= now.value)
  {
    if now.None? then false
    else if last.None? then true
    else if minInterval.None? then true
    else now.value - last.value >= minInterval.value
  }

  /** Once a pass may run, it may still run at any later time. */
  lemma ShouldRunMonotone(now: int, later: int, last: Option<int>, minInterval: Option<int>)
    requires now <= later
    requires ShouldRun(Some(now), last, minInterval)
    ensures ShouldRun(Some(later), last, minInterval)
  {
  }

  /** With a positive interval, a pass is refused at the very instant of the previous one and
      allowed from `last + minInterval` on. */
  lemma ShouldRunThreshold(last: int, minInterval: int)
    requires minInterval > 0
    ensures !ShouldRun(Some(last), Some(last), Some(minInterval))
    ensures !ShouldRun(Some(last + minInterval - 1), Some(last), Some(minInterval))
    ensures ShouldRun(Some(last + minInterval), Some(last), Some(minInterval))
  {
  }

  /** The three cases of the rate-limit tests. */
  lemma ShouldRunExamples()
    ensures ShouldRun(Some(1000), None, Some(200))
    ensures !ShouldRun(Some(1100), Some(1000), Some(200))
    ensures ShouldRun(Some(1300), Some(1000), Some(200))
  {
  }
}

=== FILE: text.dfy ===
/**
 String helpers shared by the list utilities, the host matcher and the bolding transform:
 JavaScript's `trim` and `toLowerCase`, the default `Array.prototype.sort` order, and
 sorting a sequence of strings into a duplicate-free ascending list.
 */
module Text {

  /** The elements of a sequence, as a set. */
  function Elems<T>(s: seq<T>): set<T>
  {
    set x | x in s
  }

  /** No element occurs twice. */
  predicate DuplicateFree<T(==)>(s: seq<T>)
  {
    forall i, j | 0 <= i < j < |s| :: s[i] != s[j]
  }

  /** `s` ends with `suffix` (JavaScript's `endsWith`). */
  predicate EndsWith(s: string, suffix: string)
  {
    |suffix| <= |s| && s[|s| - |suffix|..] == suffix
  }

  // ---------------------------------------------------------------------------
  // trim and toLowerCase

  /** The characters `String.prototype.trim` removes: ECMAScript WhiteSpace
      (TAB, VT, FF, SP, NBSP, ZWNBSP and the Unicode space separators) and
      LineTerminator (LF, CR, LS, PS). */
  predicate IsTrimSpace(c: char)
  {
    || c == '\t' || c == '\n' || c == '\U{B}' || c == '\U{C}' || c == '\r' || c == ' '
    || c == '\U{A0}' || c == '\U{1680}' || ('\U{2000}' <= c <= '\U{200A}')
    || c == '\U{2028}' || c == '\U{2029}' || c == '\U{202F}' || c == '\U{205F}'
    || c == '\U{3000}' || c == '\U{FEFF}'
  }

  /** Every character is trim-space (the empty string included). */
  predicate IsBlank(s: string)
  {
    forall k | 0 <= k < |s| :: IsTrimSpace(s[k])
  }

  /** Neither end of `s` is trim-space. */
  predicate IsTrimmed(s: string)
  {
    |s| == 0 || (!IsTrimSpace(s[0]) && !IsTrimSpace(s[|s| - 1]))
  }

  function TrimStart(s: string): (r: string)
    ensures |r| <= |s| && r == s[|s| - |r|..]
    ensures IsBlank(s[..|s| - |r|])
    ensures |r| == 0 || !IsTrimSpace(r[0])
  {
    if |s| > 0 && IsTrimSpace(s[0]) then TrimStart(s[1..]) else s
  }

  function TrimEnd(s: string): (r: string)
    ensures |r| <= |s| && r == s[..|r|]
    ensures IsBlank(s[|r|..])
    ensures |r| == 0 || !IsTrimSpace(r[|r| - 1])
  {
    if |s| > 0 && IsTrimSpace(s[|s| - 1]) then TrimEnd(s[..|s| - 1]) else s
  }

  /** `r` is `s` with only trim-space cut from its two ends. */
  predicate IsCutFrom(s: string, r: string)
  {
    exists i | 0 <= i <= |s| - |r| :: r == s[i..i + |r|] && IsBlank(s[..i]) && IsBlank(s[i + |r|..])
  }

  /** `String.prototype.trim`: the infix left once the trim-space at both ends is cut away. */
  function Trim(s: string): (r: string)
    ensures IsTrimmed(r)
    ensures IsCutFrom(s, r)
    ensures r == "" <==> IsBlank(s)
  {
    var a := TrimStart(s);
    var r := TrimEnd(a);
    TrimParts(s, a, r);
    r
  }

  lemma TrimParts(s: string, a: string, r: string)
    requires |a| <= |s| && a == s[|s| - |a|..] && IsBlank(s[..|s| - |a|])
    requires |a| == 0 || !IsTrimSpace(a[0])
    requires |r| <= |a| && r == a[..|r|] && IsBlank(a[|r|..])
    ensures IsCutFrom(s, r)
    ensures r == "" <==> IsBlank(s)
  {
    var i := |s| - |a|;
    assert r == s[i..i + |r|];
    assert s[i + |r|..] == a[|r|..];
    if r == "" {
      assert a == a[|r|..];
      assert s == s[..i] + a;
      BlankConcat(s[..i], a);
    } else {
      assert s[i] == r[0];
    }
  }

  lemma BlankConcat(x: string, y: string)
    requires IsBlank(x) && IsBlank(y)
    ensures IsBlank(x + y)
  {
  }

  /** A trimmed string is left alone by `Trim`. */
  lemma TrimTrimmed(s: string)
    requires IsTrimmed(s)
    ensures Trim(s) == s
  {
    if |s| > 0 {
      assert !IsTrimSpace(s[0]);
      assert TrimStart(s) == s;
      assert TrimEnd(s) == s;
    }
  }

  predicate IsUpper(c: char)
  {
    'A' <= c <= 'Z'
  }

  /** `toLowerCase` on the ASCII letters; every other character is kept. */
  function LowerChar(c: char): (d: char)
    ensures !IsUpper(d)
    ensures IsTrimSpace(d) <==> IsTrimSpace(c)
    ensures !IsUpper(c) ==> d == c
    ensures IsUpper(c) ==> d as int == c as int + 32
  {
    if IsUpper(c) then (c as int + 32) as char else c
  }

  /** No upper-case ASCII letter occurs. */
  predicate IsLower(s: string)
  {
    forall k | 0 <= k < |s| :: !IsUpper(s[k])
  }

  function Lower(s: string): (r: string)
    ensures |r| == |s|
    ensures IsLower(r)
    ensures forall k | 0 <= k < |s| :: r[k] == LowerChar(s[k])
  {
    if |s| == 0 then "" else [LowerChar(s[0])] + Lower(s[1..])
  }

  /** Lower-casing neither adds nor removes trim-space. */
  lemma LowerKeepsTrimmed(s: string)
    requires IsTrimmed(s)
    ensures IsTrimmed(Lower(s))
  {
  }

  lemma LowerOfLower(s: string)
    requires IsLower(s)
    ensures Lower(s) == s
  {
  }

  // ---------------------------------------------------------------------------
  // the default sort order: lexicographic, character by character

  /** `a` sorts strictly before `b`: a proper prefix, or smaller at the first difference. */
  predicate Below(a: string, b: string)
  {
    |b| > 0 && (|a| == 0 || a[0] < b[0] || (a[0] == b[0] && Below(a[1..], b[1..])))
  }

  lemma BelowIrreflexive(a: string)
    ensures !Below(a, a)
  {
  }

  lemma BelowTransitive(a: string, b: string, c: string)
    requires Below(a, b) && Below(b, c)
    ensures Below(a, c)
  {
  }

  lemma BelowTotal(a: string, b: string)
    requires a != b
    ensures Below(a, b) || Below(b, a)
  {
    if |a| > 0 && |b| > 0 && a[0] == b[0] {
      assert a == [a[0]] + a[1..] && b == [b[0]] + b[1..];
      BelowTotal(a[1..], b[1..]);
    }
  }

  lemma BelowAsymmetric(a: string, b: string)
    requires Below(a, b)
    ensures !Below(b, a)
  {
    if Below(b, a) {
      BelowTransitive(a, b, a);
      BelowIrreflexive(a);
    }
  }

  /** Ascending with no repeats (what `Array.from(new Set(xs)).sort()` yields). */
  predicate StrictlySorted(s: seq<string>)
  {
    forall i, j | 0 <= i < j < |s| :: Below(s[i], s[j])
  }

  lemma StrictlySortedIsDuplicateFree(s: seq<string>)
    requires StrictlySorted(s)
    ensures DuplicateFree(s)
  {
    forall i, j | 0 <= i < j < |s| ensures s[i] != s[j] {
      if s[i] == s[j] { BelowIrreflexive(s[i]); }
    }
  }

  /** Puts `x` in its place in a strictly sorted list, unless it is already there. */
  function Insert(x: string, s: seq<string>): (r: seq<string>)
    requires StrictlySorted(s)
    ensures StrictlySorted(r)
    ensures Elems(r) == Elems(s) + {x}
  {
    if |s| == 0 then [x]
    else if x == s[0] then s
    else if Below(x, s[0]) then
      assert forall j | 0 < j < |s| :: Below(x, s[j]) by {
        forall j | 0 < j < |s| ensures Below(x, s[j]) { BelowTransitive(x, s[0], s[j]); }
      }
      [x] + s
    else
      BelowTotal(x, s[0]);
      var rest := Insert(x, s[1..]);
      assert Elems(s) == {s[0]} + Elems(s[1..]) by { assert s == [s[0]] + s[1..]; }
      assert forall y | y in rest :: Below(s[0], y) by {
        forall y | y in rest ensures Below(s[0], y) {
          assert y in Elems(rest);
          if y != x {
            assert y in Elems(s[1..]);
            var k :| 0 <= k < |s[1..]| && s[1..][k] == y;
            assert s[k + 1] == y;
          }
        }
      }
      assert Elems([s[0]] + rest) == {s[0]} + Elems(rest);
      [s[0]] + rest
  }

  /** The distinct elements of `xs` in ascending order. */
  function SortUnique(xs: seq<string>): (r: seq<string>)
    ensures StrictlySorted(r)
    ensures Elems(r) == Elems(xs)
  {
    if |xs| == 0 then []
    else
      assert Elems(xs) == Elems(xs[..|xs| - 1]) + {xs[|xs| - 1]} by {
        assert xs == xs[..|xs| - 1] + [xs[|xs| - 1]];
      }
      Insert(xs[|xs| - 1], SortUnique(xs[..|xs| - 1]))
  }

  /** A strictly sorted list is determined by its elements: two of them with the
      same elements are the same list. */
  lemma {:induction false} SortedUnique(a: seq<string>, b: seq<string>)
    requires StrictlySorted(a) && StrictlySorted(b)
    requires Elems(a) == Elems(b)
    ensures a == b
  {
    if |a| > 0 { assert a[0] in Elems(a); }
    if |b| > 0 { assert b[0] in Elems(b); }
    if |a| > 0 && |b| > 0 {
      if a[0] != b[0] {
        assert a[0] in Elems(b);
        assert b[0] in Elems(a);
        var i :| 0 <= i < |b| && b[i] == a[0];
        var j :| 0 <= j < |a| && a[j] == b[0];
        assert Below(b[0], a[0]);
        assert Below(a[0], b[0]);
        BelowAsymmetric(a[0], b[0]);
      }
      forall y ensures y in Elems(a[1..]) <==> y in Elems(b[1..]) {
        if y in Elems(a[1..]) {
          var i :| 1 <= i < |a| && a[i] == y;
          assert Below(a[0], y);
          if y == b[0] { BelowIrreflexive(y); }
          assert y in Elems(b);
          var k :| 0 <= k < |b| && b[k] == y;
        }
        if y in Elems(b[1..]) {
          var i :| 1 <= i < |b| && b[i] == y;
          assert Below(b[0], y);
          if y == a[0] { BelowIrreflexive(y); }
          assert y in Elems(a);
          var k :| 0 <= k < |a| && a[k] == y;
        }
      }
      SortedUnique(a[1..], b[1..]);
      assert a == [a[0]] + a[1..] && b == [b[0]] + b[1..];
    }
  }

  /** Sorting a strictly sorted list changes nothing. */
  lemma SortUniqueOfSorted(s: seq<string>)
    requires StrictlySorted(s)
    ensures SortUnique(s) == s
  {
    SortedUnique(SortUnique(s), s);
  }
}

=== FILE: wrappers.dfy ===
/** Optional values, standing for JavaScript's `undefined`/`null`/"not a number" cases. */
module Wrappers {

  datatype Option<+T> = None | Some(value: T)
}
